=== FILE: README.md ===
# Library circulation rules

This project models the circulation engine of a school library and proves properties of the model. Copies of a book move between the shelf and members. Members borrow, return and renew loans. Late returns cost a fine and may suspend the member, and suspensions stack. Members wait for unavailable books in a first-come queue. Around these sit small state machines: kiosk sessions, kiosk and online borrow requests, one-shot QR tokens, and fine payment. Four helpers from the configuration come along: the settings lookup, default seeding, and the two template filters.

The database is replaced by an immutable `Library` value:
- books keyed by ISBN;
- members, loans, reservations, fines, online requests and kiosk requests, each a sequence in insertion order; a loan, reservation or request is named by its index, a member by its database id, which starts at 1;
- QR tokens keyed by token.

Every handler is a pure function from a state (plus its arguments) to `Ok(new state)` or `Fail(code, reason)`. The HTTP status is kept only as a tag on the failure. `Status(500), Crash` stands for an exception escaping the handler, which commits nothing.

The source has several divergent versions of the same operation, and each is modelled as written:
- `process_borrow_transaction` runs the full guard list and updates the member counters.
- `api_borrow_book` has no duplicate-loan check, no per-member limit, and leaves the counters alone.
- `api_return_book` decrements `current_borrowed` and charges nothing.
- `api_quick_return` fines and suspends, but keeps the counter.
- `process_return_transaction` charges its own 0.5 lira a day and never suspends.

"`current_borrowed` equals the member's open loans" is proved only for the pair that keeps it: `process_borrow_transaction` and `api_return_book`. The model also shows that `api_borrow_book` breaks it.

Representation:
- Time is integer seconds. The calendar day of a moment `t` is `t / 86400`.
- A stored date string is `Missing`, `Garbled`, `DateOnly(day)` (midnight of that day) or `DateTime(at)`. The code branches on which shape it sees.
- Money is in kuruş (hundredths of a lira). The per-day rate is a parameter.
- Settings read through `get_setting` arrive as a `Policy` value.
- The clock, the random kiosk tokens and the signed-in user are parameters.
- The kiosk session table is a plain `map<string, MemberId>` with no expiry. It lives outside the database, so handlers that write it return the table next to their database result. A rebinding survives a refusal that comes later in the same request.

Modules:
- `Base`: results and refusals.
- `Time`: days and date strings.
- `Store`: records, queries, open-loan counts and the two stock/counter invariants.
- `Fines`: `calculate_fine`, the inline return fine, suspension checks and stacking.
- `Circulation`: the shared borrow and return transactions of utils.py.
- `LoansApi`: the loan endpoints of api.py.
- `Reservations`: the queue and fine payment.
- `Requests`: QR tokens and online requests.
- `Kiosk`: the kiosk endpoints.
- `Config`: the settings and template helpers.
- `Scenario`: an end-to-end walk through one copy's life.

The code, and so the model, behaves as follows where a reader might expect otherwise:
- Reported availability is `quantity - open loans`, unclamped, and can be negative; only the PDF inventory list clamps it at zero.
- Reserving is not refused for a suspended member.
- No single return operation both fines and decrements the counter.
- There is no reservation expiry sweep and no promotion of the queue head.
- The one-reservation-per-user check is on the user id, which the handler fixes at 1.

## Model

| member | source | states |
|---|---|---|
| Fines.CalculateFine | utils.py:177-202 | The fine is 0 when the due date is missing or unparseable. It is also 0 when the return moment is at or before the due moment, where a missing or unparseable return date means now. Otherwise it is the calendar-day difference times the rate, never negative. |
| Fines.FineCountsCalendarDays | utils.py:200-202 | For a late return, the fine equals rate × k exactly for the k such that the return falls in the k-th calendar day after the due day. |
| Fines.SameDayIsFree | utils.py:197-202 | A return later on the due date itself costs nothing. |
| Fines.NextDayCostsOneDay | utils.py:200-202 | A return on the day after the due date costs exactly one day's rate. |
| Fines.FineMonotone | utils.py:192-202 | Returning later never costs less. |
| Fines.InlineReturnFine | utils.py:591-609 | The inline rule fines only a date-only due string, and only once at least one whole day has passed since its midnight. The amount is a positive multiple of 50 kuruş and lies within the elapsed-days bounds. |
| Fines.TimedDueNeverFinedInline | utils.py:592-609 | A due string that carries a time of day fails the date-only parse, so it is never fined inline. |
| Fines.SuspendedAt | utils.py:489-490 | A member is suspended exactly when a stored penalty moment lies after now. An unreadable stored value makes the comparison fail. |
| Fines.StackSuspension | api.py:1224-1232 | With no penalty the new end is now + 30 days; with one set it is max(now, old end) + 30 days. An unreadable value fails. |
| Fines.StackingExtends | api.py:1226-1232 | A member suspended until T and fined again at T' ≤ T ends at T + 30 days. The new end is always at least 30 days past the old one and lies after now. |
| Circulation.ProcessBorrow | utils.py:486-533 | Refusals come in order: suspension 403, no free copy 400, an open loan of the same book 400, the member limit 400. A refusal writes nothing. Success adds exactly one open loan due now + `max_borrow_days` (with a time of day), bumps the three counters, stamps `last_borrowed_date`, and changes nothing else. |
| Circulation.ProcessBorrowPreserves | utils.py:493-533 | A successful borrow keeps every ISBN's open loans within its quantity and every member's counter equal to their open loans. |
| Circulation.ProcessReturn | utils.py:562-609 | A missing transaction is refused. Otherwise the loan is stamped returned now and the book is marked `available`. A fine record is added only when the inline rule fines. Member counters and suspensions are untouched. |
| Circulation.BorrowedLoansEscapeInlineFine | utils.py:593-609 | A loan made by the shared borrow transaction is never fined by the shared return transaction, because its due string carries a time of day. |
| Circulation.ProcessReturnKeepsStock | utils.py:570-583 | A return keeps every ISBN within its stock. |
| LoansApi.PdfStock | utils.py:1148-1149 | The PDF stock figure is never negative. It is at least the unclamped availability, and equal to it or 0. |
| LoansApi.ClampIsIdentityWithinStock | api.py:56-58 | While no ISBN is over-lent, the clamped PDF figure equals the unclamped availability the API reports. |
| LoansApi.ApiDue | api.py:1086-1091 | With no due date, the due is now + `max_borrow_days` with a time of day. A date-only string gets a time appended, and a string with a time is kept. |
| LoansApi.DateOnlyDueIsLastSecond | api.py:1091 | A date-only due date given to the borrow endpoint becomes the last second of that same day. |
| LoansApi.ApiBorrow | api.py:1052-1107 | Checks come in order: unknown school number 404, suspension 403 (an unparseable penalty counts as not suspended), unknown book 404, no free copy 400. There is no duplicate or limit check. Success adds one open loan and bumps only the book counters; every other table and row is as it was. |
| LoansApi.ApiBorrowKeepsStock | api.py:1081-1105 | The borrow endpoint keeps every ISBN within its stock. |
| LoansApi.ApiBorrowDesyncsCounter | api.py:1093-1105 | Starting from agreeing counters, every successful borrow through this endpoint breaks the agreement between counters and open loans. |
| LoansApi.ApiReturn | api.py:1110-1145 | An unknown member or no open loan for (ISBN, member) gives 404 with no change. Otherwise the first such loan is closed now, and `current_borrowed` drops by one, floored at zero. Nothing else changes. |
| LoansApi.ApiReturnPreserves | api.py:1131-1143 | The return endpoint keeps counters in agreement with open loans and keeps stock. |
| LoansApi.RunStepsPreserves | api.py:1110-1145 | Counters agree and stock is respected after any sequence of shared borrows and return-endpoint returns. |
| LoansApi.Renew | api.py:1172-1198 | Checks come in order: unknown id 404, a non-empty stored return date 400, renew count at the limit 400. Otherwise the new due is the old due + `max_borrow_days`, counted from the old due and not from now, and the renew count goes up by one. |
| LoansApi.CanRenewMatchesGuards | api.py:1014 | The listed `can_renew` flag holds exactly for an open loan that passes both renewal guards. On a stored empty return date the two disagree: the flag is false, and the endpoint still renews. |
| LoansApi.TwoRenewalsThenRefused | api.py:1184-1198 | With a limit of two, a fresh loan renews twice (its due moves by twice the loan period) and the third renewal is refused. |
| LoansApi.QuickReturn | api.py:1211-1244 | Unknown id 404; a loan with a non-empty stored return date 400. The return date is today, date only, and the fine is `calculate_fine(due, today)`. Only a positive fine writes `fine_amount`, adds a fine record and stacks the member's suspension. A positive fine for a member whose stored suspension does not parse raises (500); the call succeeds exactly when none of the three refusals applies. Counters, books, reservations and every other row are untouched. |
| LoansApi.QuickReturnOnTimeIsFree | api.py:1217-1221 | A quick return on or before the due date, or with an unparseable due date, writes no fine and leaves members unchanged. |
| LoansApi.QuickReturnStacksSuspension | api.py:1221-1232 | A fined quick return suspends the member until max(now, old end) + 30 days. |
| Reservations.LastPosition | api.py:648-650 | The result is the highest active position for the ISBN, or none when it has no active reservation. |
| Reservations.HasHold | api.py:635-640 | The user holds an active reservation for the ISBN. |
| Reservations.Reserve | api.py:622-661 | Checks come in order: unknown book 404, a free copy 400, an existing active reservation of the user 400, no member 404. The new reservation goes after every active one, at max + 1 or at 1, and expires `reservation_expiry_days` from now. |
| Reservations.GapFreeLastIsLength | api.py:648-650 | On a gap-free queue of length N, the highest position is N, so the newcomer gets N + 1. |
| Reservations.ReservePreserves | api.py:634-661 | Enqueueing keeps every ISBN's active positions exactly 1..N and keeps one active reservation per user and ISBN. |
| Reservations.CancelRows | api_extended.py:109-119 | The cancelled row becomes `cancelled`. Exactly the active rows of the same ISBN with a larger position move down by one, and every other row is unchanged. |
| Reservations.Cancel | api_extended.py:96-121 | Unknown id 404. A reservation that is not active gives 400 and nothing changes. Otherwise the table is updated as `CancelRows` states. |
| Reservations.CancelOwnQueue | api_extended.py:112-119 | Cancelling from a gap-free queue 1..N leaves that queue at exactly 1..N−1. |
| Reservations.CancelOtherQueue | api_extended.py:112-116 | Cancelling leaves every other ISBN's queue gap-free. |
| Reservations.CancelKeepsOrder | api_extended.py:112-119 | Any two reservations still queued keep their relative order. |
| Reservations.CancelKeepsQueueGapFree | api_extended.py:105-121 | Cancel keeps every queue gap-free. |
| Reservations.CancelKeepsOneHold | api_extended.py:105-109 | Cancel keeps one active reservation per user and ISBN. |
| Reservations.PayFine | api_extended.py:130-143 | Unknown id 404; an already paid fine 400. Otherwise only that fine becomes paid, with the payment time recorded. |
| Reservations.PayOnce | api_extended.py:138-142 | Paying the same fine a second time is refused. |
| Requests.VerifyQr | utils.py:704-732 | An unknown token, or one that is not active, fails without change. An active token past its expiry is marked expired and fails. Otherwise the result gives its user and the time left, expiry minus now in whole seconds, which is never negative. |
| Requests.UseQr | utils.py:734-745 | The call answers true exactly for an active token, which becomes used with its use time. Every other call changes nothing. |
| Requests.UseIsOneShot | utils.py:734-745 | After one use, every later use answers false and every later check fails as not active. |
| Requests.ExpiredTokenUnusable | utils.py:714-717 | Once a check has found a token expired, it can never be used. |
| Requests.RequestOnline | utils.py:1474-1518 | Checks come in order: book, free copy, member record, suspension (an unparseable one raises), member limit. Success appends exactly one pending request. |
| Requests.ApproveOnlineAsWritten | utils.py:1548-1587 | As written: a request that is not pending is refused. The approval succeeds exactly when the borrow does, with the same state as the intended version. Every refused borrow surfaces as a crash (500). |
| Requests.ApproveOnline | utils.py:1548-1587 | As intended: a request that is not pending is refused. A missing book or member is refused. The approval succeeds exactly when the borrow does; it then marks the request approved and commits the borrow. A refused borrow's own refusal is returned and the request stays pending. |
| Requests.ApproveRefusalCrashes | utils.py:1563-1565 | For a suspended member, the intended approval answers 403, while the code as written crashes. |
| Requests.RequestThenApprove | utils.py:1474-1587 | Right after a request is accepted, approving it succeeds exactly when the member holds no open loan of that book: the duplicate-loan check is the only borrow guard the request skips. |
| Requests.RejectOnline | utils.py:1589-1598 | Only a pending request is rejected, and its reason is recorded. |
| Requests.DecidedOnce | utils.py:1552-1598 | After an approval or a rejection, both further approval and rejection are refused. |
| Kiosk.StartSession | api_kiosk.py:89-105 | A missing or zero member id gives 400. Otherwise exactly the new token is added, bound to that member, and every existing binding is kept. |
| Kiosk.ValidateSession | api_kiosk.py:111-117 | The result is the token's member exactly when a non-empty token is in the table; otherwise 401. |
| Kiosk.StartThenValidate | api_kiosk.py:89-117 | A token just handed out by `start-session` validates to the member it was started for, and every other token validates as before. |
| Kiosk.OwnershipMatchesValidation | api_kiosk.py:126-127 | The ownership test of the member endpoints holds exactly when validation would report that member. |
| Kiosk.UserData | api_kiosk.py:120-142 | Without ownership the answer is 401; an unknown member gives 404. Otherwise the summary reports the member's open-loan count. |
| Kiosk.RequestsOf | api_kiosk.py:155-160 | The member's requests whose book exists, all of them, newest first. |
| Kiosk.UserRequests | api_kiosk.py:147-172 | The call fails exactly without ownership, and then with 401. Otherwise the result is exactly the member's twenty newest requests (all of them when there are fewer), newest first. |
| Kiosk.HasPendingBorrow | api_kiosk.py:239-247 | The member already has a pending borrow request for the ISBN. |
| Kiosk.RequestBorrow | api_kiosk.py:200-262 | Checks come in order: missing ISBN or token 400, unknown token 401, book 404, member 404, no free copy 400, a pending duplicate 400. Success appends exactly one pending borrow request. |
| Kiosk.RequestBorrowNoDuplicates | api_kiosk.py:239-260 | `request-borrow` never creates a second pending borrow request for the same member and ISBN: from a table without such a pair, a successful request leaves none. |
| Kiosk.ReturnSessions | api_kiosk.py:293-307 | A supplied member id rebinds the given token, or for a `temp_` token binds a new token instead. With no member id or no token the table is unchanged. Nothing is removed. |
| Kiosk.ReturnMember | api_kiosk.py:290-332 | A supplied non-zero member id takes precedence over the token; otherwise the token's member is used. |
| Kiosk.ProcessKioskReturn | api_kiosk.py:276-411 | A missing ISBN gives 400 and changes no session. Then come: neither member nor token 400, unknown token 401, book 404, member 404, no open loan 400. The session rebinding stands even when the return is refused. Success closes the acting member's first open loan of the book through the shared return transaction. |
| Kiosk.KioskReturnClosesOwnLoan | api_kiosk.py:347-388 | A kiosk return closes a loan the acting member holds on that ISBN, and touches no member record. |
| Kiosk.ParseStatus | api_kiosk.py:574 | Accepts exactly the four status words. |
| Kiosk.AdminUpdate | api_kiosk.py:563-579 | Unknown id 404. The status changes only to one of the four accepted values and stays as it was for any other. The notes change only when given. No other field changes. |
| Kiosk.AdminUpdateKeepsNoDuplicates | api_kiosk.py:574-577 | An update that does not set `pending` keeps the table free of duplicate pending borrow requests. |
| Kiosk.AdminUpdateCanRevive | api_kiosk.py:574-577 | Setting a rejected request back to `pending` can create a duplicate: a concrete table where it does. |
| Kiosk.AdminApprove | api_kiosk.py:588-630 | Unknown id 404; not pending 400. A borrow request needs its book and member (404) and succeeds exactly when the shared borrow does; the state is then exactly the shared borrow's (new loan, book and member counters) with the request completed. Any other kind completes at once with no loan and nothing else changed. On a refusal of the shared borrow that refusal is returned and the request stays pending. |
| Kiosk.AdminReject | api_kiosk.py:644-662 | Unknown id 404. The call succeeds exactly on a pending request, which becomes rejected with the reason, or the default reason, in its notes. |
| Kiosk.AdminDecidesOnce | api_kiosk.py:595-660 | After an approval or a rejection, both are refused with 400. |
| Config.GetSetting | config.py:101-104 | The result is the stored value, else the default. |
| Config.Seed | config.py:165-168 | Seeding adds exactly the missing default keys, with their first listed value, and never overwrites a stored value. |
| Config.SeedDefaults | config.py:152-168 | After seeding, every default key is present and every stored value is kept. |
| Config.SeedIdempotent | config.py:165-168 | Seeding twice is the same as seeding once. |
| Config.PolicyDefaults | config.py:153-157 | The listed defaults are fine 1.0 a day, 14 loan days, 2 renewals, 3 reservation days and 5 books. |
| Config.SeededPolicy | config.py:152-168 | On an empty table the five policy settings read back as their defaults, and a stored value wins over its default. |
| Config.ActivityIcon | config.py:336-349 | The result is the mapped icon for the ten known actions, else `info-circle`. |
| Config.ActivityIconDistinguishes | config.py:337-349 | The fallback icon appears exactly for unknown actions, and distinct known actions get distinct icons. |
| Config.TimeAgo | config.py:353-379 | Falsy input renders empty, and an unparsed string comes back unchanged. Under 60 seconds, including future moments, it renders "şimdi". |
| Config.TimeAgoBuckets | config.py:370-379 | Every count shown is at least 1 and is the whole number of units elapsed. The elapsed time stays below the next unit's threshold. |
| Config.TimeAgoJustNowMonotone | config.py:366-369 | If an older moment shows "şimdi", any newer one does too. |
| Scenario.OneCopyWalkThrough | utils.py:486-533 | One copy walks through this sequence:<br>1. One member borrows it.<br>2. Another member's borrow is refused.<br>3. The other member queues at position 1.<br>4. The first member returns three days late: a three-day fine, and a suspension of 30 days from the return. The queue is untouched.<br>5. The queued member's own borrow then succeeds. |
| Store.FindOpen | utils.py:498-502 | The result is the lowest-id open loan of (ISBN, member), or none exactly when there is none. |
| Store.FindBySchoolNo | api.py:1060-1062 | The result is the lowest-id member with the school number, or none exactly when there is none. |

## Left out

- Flask routing, JSON bodies and messages, authentication and role checks: only the status code survives, as a tag on a refusal. An optional body field is present or absent; an explicit JSON `null` is not told apart from a missing key. For example, a kiosk rejection with `"reason": null` gets the default reason here, while the handler writes `Reddedildi: None`.
- Concurrency is out of scope: two simultaneous last-copy borrows, and the process-wide session table, involve no locking in the source.
- Database commits are atomic map updates. A failing commit is not modelled.
- The clock, random tokens (`uuid4`), the signed-in user (`current_user`) and the handlers' fixed ids (`user_id = 1` and `Member.query.first()` in `reserve_book`) are parameters.
- Money is natural kuruş, not floats. The per-day rate of `calculate_fine` is a parameter. `get_setting` strings are converted to a `Policy` at the boundary; a conversion that fails is not modelled.
- Date strings are parsed at the boundary into the four `DateText` shapes. `strptime`, `fromisoformat` and `strftime` text are not modelled. Moments are whole seconds. The source's `datetime.now()` carries microseconds, and so do the moments computed from it: a `penalty_until` of now plus 30 days (api.py:1226-1232) and a QR expiry of now plus 30 minutes (utils.py:681). The model floors every moment to the second, so two moments that fall within the same second compare as equal here, while the source may order them.
- Member ids are the database ids: member `m` is the `m`-th member row, and ids start at 1. A kiosk `member_id` of 0 is treated as absent, as the source's truthiness test does, and 0 names no member in either.
- Notes, messages, pickup dates and times, `approved_by` and `approved_at` are not modelled. Neither are the title, author and date fields of listings. The kiosk request notes and the rejection notes are kept.
- Email, notifications, activity logs, metadata fetching, covers, PDF/Excel/QR rendering, caching and fuzzy search are I/O or presentation; none of them is modelled.
- The user-info lookup in `verify_qr_code` (user name, e-mail, member) is left out; the model returns the token's user id.
- Administrative record editing and deletion are not modelled. This covers catalog, member and transaction CRUD, and kiosk request deletion by the user or an administrator. Editing a quantity or deleting an open loan can break the stock and counter invariants.
- A stored empty return date is `Some(Missing)`. The open-loan queries test for null, so such a loan is not open; `LoansApi.Renew` and `LoansApi.QuickReturn` test truthiness (api.py:1180, api.py:1214) and treat it as not returned, as the source does. No modelled write stores an empty return date; only administrative editing could.
- Reservation expiry and fulfilment: the source has no sweep and no promotion, and nothing ever sets `fulfilled` or `expired`.
- Kiosk.UserData: the pending-request count is computed but the contract states only the open-loan count and the guards.
- Kiosk.RequestBorrowNoDuplicates: the invariant is kept by `request-borrow` only. An administrator update that sets a request back to `pending` can break it, as Kiosk.AdminUpdateCanRevive shows, so the model does not promise it over every operation.
- Kiosk.UserRequests: "newest first" is taken as highest id first; the source orders by creation time, which rises with the id.
- Config.TimeAgo: the rendered Turkish phrase is represented by the count and unit, and the text itself is not built.

## Findings

| source | as written | input that shows it | evidently intended | confidence | as-written member | corrected member |
|---|---|---|---|---|---|---|
| utils.py:1563-1565 | `approve_online_borrow_request` reads `result.status_code`. A refused `process_borrow_transaction` returns a (response, status) tuple, which has no such attribute, so the approval raises. | A pending online request whose member is suspended until after now. | Return the borrow's own refusal (here 403) and leave the request pending, as the kiosk approval does. | not executed | Requests.ApproveOnlineAsWritten (shown by Requests.ApproveRefusalCrashes) | Requests.ApproveOnline |

=== FILE: base.dfy ===
/** Shared result types of the circulation engine.

    Every handler either commits a new state or refuses with a typed reason.
    The HTTP status the handler answers with is kept as a tag on the refusal;
    helpers that return a plain failure dictionary carry `NoStatus`.
 */
module Base {

  datatype Option<+T> = None | Some(value: T)

  /** How a refusal is reported to the caller. */
  datatype Code = Status(n: int) | NoStatus

  /** Why an operation refused. `Crash` stands for an exception escaping the
      handler (answered with 500 by the web layer, with no commit). */
  datatype Refusal =
    | MemberNotFound
    | BookNotFound
    | Suspended
    | Unavailable
    | AlreadyBorrowed
    | LimitReached
    | NoActiveLoan
    | AlreadyReturned
    | RenewLimitReached
    | BookAvailable
    | AlreadyReserved
    | NotActive
    | QrExpired
    | AlreadyPaid
    | NotFound
    | AlreadyProcessed
    | MissingParameters
    | InvalidSession
    | DuplicateRequest
    | Crash

  datatype Result<+T> = Ok(value: T) | Fail(code: Code, why: Refusal)

  /** A truthy string argument: present and not empty. */
  predicate Given(s: Option<string>) {
    s.Some? && s.value != ""
  }

  /** A truthy id argument: present and not zero. Database ids start at 1,
      so a falsy id names no row. */
  predicate GivenId(x: Option<int>) {
    x.Some? && x.value != 0
  }
}

=== FILE: circulation.dfy ===
/** The shared borrow and return transactions of utils.py.

    `process_borrow_transaction` is reached from the online-request and kiosk
    approvals; `process_return_transaction` from the kiosk return. Both
    receive rows the caller already loaded.
 */
module Circulation {
  import opened Base
  import opened Time
  import opened Store
  import opened Fines

  /** The refusal `process_borrow_transaction` answers with, if any, checked in
      source order: suspension (403), no free copy, an open loan of the same
      book, the per-member limit (each 400). A stored suspension that is not a
      timestamp makes the comparison raise. */
  function BorrowRefusal(st: Library, isbn: Isbn, m: MemberId, now: int, maxBooks: int): Option<(Code, Refusal)>
    requires isbn in st.books && st.HasMember(m)
  {
    var susp := SuspendedAt(st.MemberAt(m).suspension, now);
    if susp.None? then Some((Status(500), Crash))
    else if susp.value then Some((Status(403), Suspended))
    else if st.books[isbn].quantity <= OpenCount(st.loans, isbn) then Some((Status(400), Unavailable))
    else if FindOpen(st.loans, isbn, m).Some? then Some((Status(400), AlreadyBorrowed))
    else if OpenCountOf(st.loans, m) >= maxBooks then Some((Status(400), LimitReached))
    else None
  }

  /** The loan a successful `process_borrow_transaction` creates: due
      `max_borrow_days` after now, written with a time of day. */
  function NewLoan(isbn: Isbn, m: MemberId, now: int, maxBorrowDays: int): Loan {
    Loan(isbn, m, now, DateTime(AddDays(now, maxBorrowDays)), None, 0, None)
  }

  /** `process_borrow_transaction(book, member, …)`. */
  function ProcessBorrow(st: Library, isbn: Isbn, m: MemberId, now: int, p: Policy): (r: Result<Library>)
    requires isbn in st.books && st.HasMember(m)
    // refusals, in order; a refusal writes nothing
    ensures st.MemberAt(m).suspension.Unreadable? ==> r == Fail(Status(500), Crash)
    ensures st.MemberAt(m).suspension.Until? && now < st.MemberAt(m).suspension.at ==>
              r == Fail(Status(403), Suspended)
    ensures SuspendedAt(st.MemberAt(m).suspension, now) == Some(false)
            && st.books[isbn].quantity <= OpenCount(st.loans, isbn) ==>
              r == Fail(Status(400), Unavailable)
    ensures SuspendedAt(st.MemberAt(m).suspension, now) == Some(false)
            && OpenCount(st.loans, isbn) < st.books[isbn].quantity
            && (exists i :: 0 <= i < |st.loans| && OpenPair(st.loans[i], isbn, m)) ==>
              r == Fail(Status(400), AlreadyBorrowed)
    ensures SuspendedAt(st.MemberAt(m).suspension, now) == Some(false)
            && OpenCount(st.loans, isbn) < st.books[isbn].quantity
            && (forall i :: 0 <= i < |st.loans| ==> !OpenPair(st.loans[i], isbn, m))
            && OpenCountOf(st.loans, m) >= p.maxBooksPerMember ==>
              r == Fail(Status(400), LimitReached)
    ensures r.Ok? <==>
              && SuspendedAt(st.MemberAt(m).suspension, now) == Some(false)
              && OpenCount(st.loans, isbn) < st.books[isbn].quantity
              && (forall i :: 0 <= i < |st.loans| ==> !OpenPair(st.loans[i], isbn, m))
              && OpenCountOf(st.loans, m) < p.maxBooksPerMember
    // success: exactly one new open loan, the book's and the member's
    // counters bumped, every other table and row as it was
    ensures r.Ok? ==>
              var book := st.books[isbn];
              var member := st.MemberAt(m);
              && r.value == st.(
                   loans := st.loans + [NewLoan(isbn, m, now, p.maxBorrowDays)],
                   books := st.books[isbn := book.(totalBorrowCount := book.totalBorrowCount + 1, lastBorrowed := Some(now))],
                   members := st.members[m - 1 := member.(totalBorrowed := member.totalBorrowed + 1,
                                                          currentBorrowed := member.currentBorrowed + 1)])
              && OpenCount(r.value.loans, isbn) == OpenCount(st.loans, isbn) + 1
              && OpenCount(r.value.loans, isbn) <= r.value.books[isbn].quantity
  {
    var refusal := BorrowRefusal(st, isbn, m, now, p.maxBooksPerMember);
    if refusal.Some? then Fail(refusal.value.0, refusal.value.1)
    else
      var book := st.books[isbn];
      var member := st.MemberAt(m);
      var loan := NewLoan(isbn, m, now, p.maxBorrowDays);
      OpenCountAppend(st.loans, loan, isbn);
      Ok(st.(
        loans := st.loans + [loan],
        books := st.books[isbn := book.(totalBorrowCount := book.totalBorrowCount + 1, lastBorrowed := Some(now))],
        members := st.members[m - 1 := member.(totalBorrowed := member.totalBorrowed + 1,
                                               currentBorrowed := member.currentBorrowed + 1)]))
  }

  /** A successful borrow keeps every ISBN within its stock and keeps every
      member's counter equal to their open loans. */
  lemma {:induction false} ProcessBorrowPreserves(st: Library, isbn: Isbn, m: MemberId, now: int, p: Policy)
    requires isbn in st.books && st.HasMember(m)
    requires ProcessBorrow(st, isbn, m, now, p).Ok?
    ensures WithinStock(st) ==> WithinStock(ProcessBorrow(st, isbn, m, now, p).value)
    ensures CountersAgree(st) ==> CountersAgree(ProcessBorrow(st, isbn, m, now, p).value)
  {
    var st' := ProcessBorrow(st, isbn, m, now, p).value;
    var loan := NewLoan(isbn, m, now, p.maxBorrowDays);
    forall b | b in st'.books
      ensures OpenCount(st'.loans, b) == OpenCount(st.loans, b) + (if b == isbn then 1 else 0)
    {
      OpenCountAppend(st.loans, loan, b);
    }
    forall k | st'.HasMember(k)
      ensures OpenCountOf(st'.loans, k) == OpenCountOf(st.loans, k) + (if k == m then 1 else 0)
    {
      OpenCountOfAppend(st.loans, loan, k);
    }
  }

  /** `process_return_transaction(transaction, …)`: a missing transaction is
      refused; otherwise the loan is stamped returned now, the book (if it
      still exists) is marked `available`, and a fine record is added only
      when the inline rule fines the due date. Member counters and
      suspensions are left alone. `user` is the signed-in user, absent at a kiosk. */
  function ProcessReturn(st: Library, loan: Option<nat>, now: int, user: Option<UserId>): (r: Result<Library>)
    requires loan.Some? ==> st.HasLoan(loan.value)
    ensures loan.None? <==> r.Fail?
    ensures r.Ok? ==>
              var st' := r.value;
              var id := loan.value;
              var prior := st.loans[id];
              // only the loan, the book and the fines tables move
              && st' == st.(loans := st.loans[id := prior.(returned := Some(DateTime(now)))],
                            books := st'.books, fines := st'.fines)
              && st'.books.Keys == st.books.Keys
              && (forall b :: b in st.books && b != prior.isbn ==> st'.books[b] == st.books[b])
              && (prior.isbn in st.books ==>
                    st'.books[prior.isbn] == st.books[prior.isbn].(status := "available"))
              && (InlineReturnFine(prior.due, now).None? ==> st'.fines == st.fines)
              && (InlineReturnFine(prior.due, now).Some? ==>
                    st'.fines == st.fines + [Fine(user, prior.member, id, InlineReturnFine(prior.due, now).value, Unpaid, None)])
  {
    if loan.None? then Fail(NoStatus, NotFound)
    else
      var id := loan.value;
      var l := st.loans[id];
      var books' := if l.isbn in st.books then st.books[l.isbn := st.books[l.isbn].(status := "available")] else st.books;
      var fine := InlineReturnFine(l.due, now);
      var fines' := if fine.Some? then st.fines + [Fine(user, l.member, id, fine.value, Unpaid, None)] else st.fines;
      Ok(st.(loans := st.loans[id := l.(returned := Some(DateTime(now)))], books := books', fines := fines'))
  }

  /** A loan made by `process_borrow_transaction` is never fined by
      `process_return_transaction`: its due string carries a time of day, the
      date-only parse fails and the error is swallowed. */
  lemma {:induction false} BorrowedLoansEscapeInlineFine(st: Library, isbn: Isbn, m: MemberId, borrowedAt: int, p: Policy, returnAt: int, user: Option<UserId>)
    requires isbn in st.books && st.HasMember(m)
    requires ProcessBorrow(st, isbn, m, borrowedAt, p).Ok?
    ensures var st' := ProcessBorrow(st, isbn, m, borrowedAt, p).value;
            var id := |st'.loans| - 1;
            ProcessReturn(st', Some(id), returnAt, user).Ok? &&
            ProcessReturn(st', Some(id), returnAt, user).value.fines == st'.fines
  {
    var st' := ProcessBorrow(st, isbn, m, borrowedAt, p).value;
    var id := |st'.loans| - 1;
    assert st'.loans[id].due.DateTime?;
  }

  /** A return closes one loan, so it keeps every ISBN within its stock. */
  lemma {:induction false} ProcessReturnKeepsStock(st: Library, loan: nat, now: int, user: Option<UserId>)
    requires st.HasLoan(loan) && WithinStock(st)
    ensures WithinStock(ProcessReturn(st, Some(loan), now, user).value)
  {
    var st' := ProcessReturn(st, Some(loan), now, user).value;
    assert st'.loans == st.loans[loan := st'.loans[loan]];
    forall b | b in st'.books
      ensures OpenCount(st'.loans, b) <= OpenCount(st.loans, b)
    {
      OpenCountUpdate(st.loans, loan, st'.loans[loan], b);
    }
  }
}

=== FILE: config.dfy ===
/** Pure helpers of config.py: the settings lookup, the seeding of default
    settings at start-up, and two template filters. */
module Config {
  import opened Base

  type Settings = map<string, string>

  /** `get_setting(key, default)`: the stored value, else the default. */
  function GetSetting(settings: Settings, key: string, default: Option<string>): (r: Option<string>)
    ensures key in settings ==> r == Some(settings[key])
    ensures key !in settings ==> r == default
  {
    if key in settings then Some(settings[key]) else default
  }

  /** The default settings `init_database` seeds, in seeding order. */
  const DefaultSettings: seq<(string, string)> := [
    ("fine_per_day", "1.0"),
    ("max_borrow_days", "14"),
    ("max_renew_count", "2"),
    ("reservation_expiry_days", "3"),
    ("max_books_per_member", "5"),
    ("library_name", "Cumhuriyet Anadolu Lisesi Kütüphanesi"),
    ("library_email", "kutuphane@cal.edu.tr"),
    ("library_phone", "0312 XXX XX XX"),
    ("sms_notifications", "false"),
    ("email_notifications", "true")
  ]

  function Keys(defaults: seq<(string, string)>): set<string> {
    set i | 0 <= i < |defaults| :: defaults[i].0
  }

  /** The value the first default entry for `k` carries. */
  function FirstDefault(defaults: seq<(string, string)>, k: string): Option<string> {
    if |defaults| == 0 then None
    else if defaults[0].0 == k then Some(defaults[0].1)
    else FirstDefault(defaults[1..], k)
  }

  /** Adds each default whose key is absent; stored values are never overwritten. */
  function Seed(settings: Settings, defaults: seq<(string, string)>): (r: Settings)
    ensures r.Keys == settings.Keys + Keys(defaults)
    ensures forall k :: k in settings ==> r[k] == settings[k]
    ensures forall k :: k in r && k !in settings ==> Some(r[k]) == FirstDefault(defaults, k)
    decreases |defaults|
  {
    if |defaults| == 0 then settings
    else
      var (k, v) := defaults[0];
      var s' := if k in settings then settings else settings[k := v];
      assert Keys(defaults) == {k} + Keys(defaults[1..]) by {
        forall x | x in Keys(defaults) ensures x in {k} + Keys(defaults[1..]) {
          var i :| 0 <= i < |defaults| && defaults[i].0 == x;
          if i > 0 { assert defaults[1..][i - 1] == defaults[i]; }
        }
        forall x | x in Keys(defaults[1..]) ensures x in Keys(defaults) {
          var i :| 0 <= i < |defaults[1..]| && defaults[1..][i].0 == x;
          assert defaults[i + 1] == defaults[1..][i];
        }
      }
      Seed(s', defaults[1..])
  }

  /** `init_database`'s settings step. */
  function SeedDefaults(settings: Settings): (r: Settings)
    ensures r.Keys == settings.Keys + Keys(DefaultSettings)
    ensures forall k :: k in settings ==> r[k] == settings[k]
  {
    Seed(settings, DefaultSettings)
  }

  /** Seeding a table that already holds every default key changes nothing. */
  lemma {:induction false} SeedCovered(settings: Settings, defaults: seq<(string, string)>)
    requires Keys(defaults) <= settings.Keys
    ensures Seed(settings, defaults) == settings
  {
    var r := Seed(settings, defaults);
    assert r.Keys == settings.Keys;
    assert forall k :: k in r ==> r[k] == settings[k];
  }

  /** Seeding twice is seeding once. */
  lemma {:induction false} SeedIdempotent(settings: Settings)
    ensures SeedDefaults(SeedDefaults(settings)) == SeedDefaults(settings)
  {
    SeedCovered(SeedDefaults(settings), DefaultSettings);
  }

  /** The first default entry for each policy key, read off the seeding list. */
  lemma PolicyDefaults()
    ensures FirstDefault(DefaultSettings, "fine_per_day") == Some("1.0")
    ensures FirstDefault(DefaultSettings, "max_borrow_days") == Some("14")
    ensures FirstDefault(DefaultSettings, "max_renew_count") == Some("2")
    ensures FirstDefault(DefaultSettings, "reservation_expiry_days") == Some("3")
    ensures FirstDefault(DefaultSettings, "max_books_per_member") == Some("5")
  {
    var d := DefaultSettings;
    assert d[1..][1..][1..][1..] == d[4..];
    assert d[1..][1..][1..] == d[3..];
    assert d[1..][1..] == d[2..];
  }

  /** On an empty settings table the policy values are the documented
      defaults, and a stored value always wins over its default. */
  lemma {:induction false} SeededPolicy(settings: Settings)
    ensures var s := SeedDefaults(map[]);
            && GetSetting(s, "fine_per_day", None) == Some("1.0")
            && GetSetting(s, "max_borrow_days", None) == Some("14")
            && GetSetting(s, "max_renew_count", None) == Some("2")
            && GetSetting(s, "reservation_expiry_days", None) == Some("3")
            && GetSetting(s, "max_books_per_member", None) == Some("5")
    ensures "max_borrow_days" in settings ==>
              GetSetting(SeedDefaults(settings), "max_borrow_days", None) == Some(settings["max_borrow_days"])
  {
    PolicyDefaults();
    var d := DefaultSettings;
    forall i | 0 <= i < 5 ensures d[i].0 in Keys(d) {}
    assert d[0].0 == "fine_per_day" && d[1].0 == "max_borrow_days" && d[2].0 == "max_renew_count";
    assert d[3].0 == "reservation_expiry_days" && d[4].0 == "max_books_per_member";
  }

  // ---------------------------------------------------------------------------
  // activity_icon

  const IconMap: map<string, string> := map[
    "login" := "box-arrow-in-right",
    "logout" := "box-arrow-right",
    "register" := "person-plus",
    "add_book" := "book-plus",
    "borrow" := "arrow-down-circle",
    "return" := "arrow-up-circle",
    "reserve" := "bookmark-plus",
    "fine" := "exclamation-circle",
    "update" := "pencil-square",
    "delete" := "trash"
  ]

  const FallbackIcon: string := "info-circle"

  /** `activity_icon_filter`: the mapped icon, else the fallback. */
  function ActivityIcon(action: string): (icon: string)
    ensures action in IconMap ==> icon == IconMap[action]
    ensures action !in IconMap ==> icon == FallbackIcon
  {
    if action in IconMap then IconMap[action] else FallbackIcon
  }

  /** The fallback icon is shown exactly for unknown actions, and distinct
      known actions get distinct icons. */
  lemma ActivityIconDistinguishes(a: string, b: string)
    ensures ActivityIcon(a) == FallbackIcon <==> a !in IconMap
    ensures a in IconMap && b in IconMap && a != b ==> ActivityIcon(a) != ActivityIcon(b)
  {
  }

  // ---------------------------------------------------------------------------
  // timeago

  /** The argument of `timeago_filter`: falsy, a string that matches neither
      timestamp format, or a moment (an integer number of seconds). */
  datatype Stamp = Falsy | Unparsed(text: string) | At(t: int)

  datatype Unit = Minutes | Hours | Days | Months | Years

  /** What the filter renders: nothing, the string back, "şimdi", or
      "<n> <unit> önce". */
  datatype Ago = Blank | Verbatim(text: string) | JustNow | Count(n: int, unit: Unit)

  function UnitSeconds(u: Unit): (s: int)
    ensures s >= 60
  {
    match u
    case Minutes => 60
    case Hours => 3600
    case Days => 86400
    case Months => 2592000
    case Years => 31104000
  }

  /** The smallest number of seconds displayed with the next unit up. */
  function UnitLimit(u: Unit): Option<int> {
    match u
    case Minutes => Some(3600)
    case Hours => Some(86400)
    case Days => Some(2592000)
    case Months => Some(31104000)
    case Years => None
  }

  /** `timeago_filter(dt)` at `now`. Python's `//` on the positive seconds
      is Dafny's `/`. */
  function TimeAgo(stamp: Stamp, now: int): (r: Ago)
    ensures stamp.Falsy? <==> r.Blank?
    ensures stamp.Unparsed? <==> r.Verbatim?
    ensures stamp.Unparsed? ==> r.text == stamp.text
    ensures stamp.At? ==> (r.JustNow? <==> now - stamp.t < 60)
  {
    match stamp
    case Falsy => Blank
    case Unparsed(s) => Verbatim(s)
    case At(t) =>
      var secs := now - t;
      if secs < 60 then JustNow
      else if secs < 3600 then Count(secs / 60, Minutes)
      else if secs < 86400 then Count(secs / 3600, Hours)
      else if secs < 2592000 then Count(secs / 86400, Days)
      else if secs < 31104000 then Count(secs / 2592000, Months)
      else Count(secs / 31104000, Years)
  }

  /** Every count shown is at least 1, it is the whole number of units
      elapsed, and the elapsed time is below the next unit's threshold. */
  lemma TimeAgoBuckets(t: int, now: int)
    requires TimeAgo(At(t), now).Count?
    ensures var r := TimeAgo(At(t), now);
            var secs := now - t;
            && r.n >= 1
            && r.n * UnitSeconds(r.unit) <= secs < (r.n + 1) * UnitSeconds(r.unit)
            && (UnitLimit(r.unit).Some? ==> secs < UnitLimit(r.unit).value)
            && secs >= 60
  {
    var r := TimeAgo(At(t), now);
    var secs := now - t;
    var u := UnitSeconds(r.unit);
    assert r.n == secs / u;
    DivBounds(secs, u);
  }

  lemma DivBounds(a: int, b: int)
    requires a >= b > 0
    ensures a / b >= 1
    ensures (a / b) * b <= a < (a / b + 1) * b
  {
  }

  /** Later moments never show a larger age: an older stamp is never shown
      as "şimdi" when a newer one is not. */
  lemma TimeAgoJustNowMonotone(t: int, t': int, now: int)
    requires t <= t'
    ensures TimeAgo(At(t), now).JustNow? ==> TimeAgo(At(t'), now).JustNow?
  {
  }
}

=== FILE: fines.dfy ===
/** Late fines and borrowing suspensions.

    Two fine rules coexist in the source: the general one (`calculate_fine`,
    utils.py), which counts calendar days between the due date and the
    return, and the one inlined in `process_return_transaction`, which only
    reads date-only due strings and counts whole elapsed days at a fixed
    50 kuruş per day. A fined quick return suspends the member for 30 days,
    stacked on top of a suspension still running.
 */
module Fines {
  import opened Base
  import opened Time
  import opened Store

  /** Length of the suspension a fined quick return imposes, in days. */
  const SuspensionDays: int := 30

  /** The rate `process_return_transaction` hard-codes: 0.5 lira per day, in kuruş. */
  const InlineRatePerDay: nat := 50

  /** `calculate_fine(due, ret)`: a missing or unparseable return date means `now`;
      a missing or unparseable due date, or a return no later than the due
      moment, costs nothing; otherwise each calendar day between the two costs `rate`. */
  function CalculateFine(due: DateText, ret: DateText, now: int, rate: nat): (fine: nat)
    ensures !Parses(due) ==> fine == 0
    ensures Parses(due) && ReturnMoment(ret, now) <= Moment(due) ==> fine == 0
    ensures Parses(due) && ReturnMoment(ret, now) > Moment(due) ==>
              fine == (Day(ReturnMoment(ret, now)) - Day(Moment(due))) * rate
  {
    if !Parses(due) then 0
    else
      var r := ReturnMoment(ret, now);
      var d := Moment(due);
      if r <= d then 0
      else
        DayMonotone(d, r);
        (Day(r) - Day(d)) * rate
  }

  /** `_parse_dt(return_date) or datetime.now()`. */
  function ReturnMoment(ret: DateText, now: int): int {
    if Parses(ret) then Moment(ret) else now
  }

  /** The number of calendar days late: the return falls in the calendar day
      `lateDays` days after the due day. This characterisation does not
      mention division. */
  ghost predicate LateBy(due: int, ret: int, lateDays: int) {
    (Day(due) + lateDays) * SecondsPerDay <= ret < (Day(due) + lateDays + 1) * SecondsPerDay
  }

  /** For a late return the fine is `rate` times the unique number of
      calendar days that separate the return's day from the due day. */
  lemma {:induction false} FineCountsCalendarDays(due: DateText, ret: DateText, now: int, rate: nat, lateDays: int)
    requires Parses(due) && ReturnMoment(ret, now) > Moment(due)
    ensures LateBy(Moment(due), ReturnMoment(ret, now), lateDays) <==>
            lateDays == Day(ReturnMoment(ret, now)) - Day(Moment(due))
    ensures LateBy(Moment(due), ReturnMoment(ret, now), lateDays) ==>
            CalculateFine(due, ret, now, rate) == lateDays * rate
  {
    var r := ReturnMoment(ret, now);
    var d := Moment(due);
    if LateBy(d, r, lateDays) {
      DayOfSpan(r, Day(d) + lateDays);
    }
    if lateDays == Day(r) - Day(d) {
      DayBounds(r);
    }
  }

  /** A return later on the due date itself costs nothing. */
  lemma {:induction false} SameDayIsFree(due: DateText, ret: DateText, now: int, rate: nat)
    requires Parses(due)
    requires Day(ReturnMoment(ret, now)) == Day(Moment(due))
    ensures CalculateFine(due, ret, now, rate) == 0
  {
  }

  /** A return just after the following midnight costs exactly one day's rate. */
  lemma {:induction false} NextDayCostsOneDay(due: DateText, ret: DateText, now: int, rate: nat)
    requires Parses(due)
    requires Day(ReturnMoment(ret, now)) == Day(Moment(due)) + 1
    ensures CalculateFine(due, ret, now, rate) == rate
  {
    var r := ReturnMoment(ret, now);
    var d := Moment(due);
    DayBounds(d);
    DayBounds(r);
  }

  /** Returning later never costs less. */
  lemma {:induction false} FineMonotone(due: DateText, r1: DateText, r2: DateText, now: int, rate: nat)
    requires ReturnMoment(r1, now) <= ReturnMoment(r2, now)
    ensures CalculateFine(due, r1, now, rate) <= CalculateFine(due, r2, now, rate)
  {
    if Parses(due) {
      var a := ReturnMoment(r1, now);
      var b := ReturnMoment(r2, now);
      DayMonotone(a, b);
      if a > Moment(due) {
        DayMonotone(Moment(due), a);
        assert CalculateFine(due, r1, now, rate) == (Day(a) - Day(Moment(due))) * rate;
        assert CalculateFine(due, r2, now, rate) == (Day(b) - Day(Moment(due))) * rate;
        MulMonotone(Day(a) - Day(Moment(due)), Day(b) - Day(Moment(due)), rate);
      }
    }
  }

  lemma MulMonotone(x: int, y: int, k: nat)
    requires x <= y
    ensures x * k <= y * k
  {
  }

  /** The fine `process_return_transaction` records, if any: the due string
      must parse as date-only (anything else raises and is swallowed), and
      the whole days elapsed since that midnight must be positive. */
  function InlineReturnFine(due: DateText, now: int): (fine: Option<nat>)
    ensures fine.Some? <==> due.DateOnly? && now - Moment(due) >= SecondsPerDay
    ensures fine.Some? ==> fine.value > 0 && fine.value % InlineRatePerDay == 0
    ensures fine.Some? ==>
              var days := fine.value / InlineRatePerDay;
              days * SecondsPerDay <= now - Moment(due) < (days + 1) * SecondsPerDay
  {
    if !due.DateOnly? then None
    else
      var d := Moment(due);
      if now > d then
        var daysLate := (now - d) / SecondsPerDay;
        if daysLate > 0 then Some(daysLate * InlineRatePerDay) else None
      else None
  }

  /** A due string carrying a time of day is never fined by the inline rule. */
  lemma TimedDueNeverFinedInline(at: int, now: int)
    ensures InlineReturnFine(DateTime(at), now).None?
  {
  }

  // ---------------------------------------------------------------------------
  // Suspensions

  /** `penalty_until and now < penalty_until`; the comparison raises (`None`)
      when the stored value is not a timestamp. */
  function SuspendedAt(s: Suspension, now: int): (r: Option<bool>)
    ensures r.None? <==> s.Unreadable?
    ensures r == Some(true) <==> s.Until? && now < s.at
  {
    match s
    case Unset => Some(false)
    case Until(at) => Some(now < at)
    case Unreadable => None
  }

  /** The penalty stacking of a fined quick return: a fresh 30 days from now
      when no suspension is set or it has lapsed (`now > penalty_until`),
      otherwise 30 more days on top of the running one. `None` when the
      stored value is not a timestamp and the comparison raises. */
  function StackSuspension(s: Suspension, now: int): (r: Option<Suspension>)
    ensures r.None? <==> s.Unreadable?
    ensures s.Unset? ==> r == Some(Until(AddDays(now, SuspensionDays)))
    ensures s.Until? ==> r == Some(Until(AddDays(Max(now, s.at), SuspensionDays)))
  {
    match s
    case Unset => Some(Until(AddDays(now, SuspensionDays)))
    case Until(at) =>
      if now > at then Some(Until(AddDays(now, SuspensionDays)))
      else Some(Until(AddDays(at, SuspensionDays)))
    case Unreadable => None
  }

  function Max(a: int, b: int): int {
    if a < b then b else a
  }

  /** A member still suspended until T who is fined again at T' < T ends up
      suspended until T + 30 days, not T' + 30 days; and a stacked suspension
      always outlasts the one it replaces. */
  lemma StackingExtends(at: int, now: int)
    ensures StackSuspension(Until(at), now).value.at >= at + SuspensionDays * SecondsPerDay
    ensures now <= at ==> StackSuspension(Until(at), now) == Some(Until(at + SuspensionDays * SecondsPerDay))
    ensures StackSuspension(Until(at), now).value.at > now
  {
  }
}

=== FILE: kiosk.dfy ===
/** The self-service kiosk endpoints (api_kiosk.py).

    Sessions live in a process-wide table from token to member id that is
    never pruned and has no expiry; it sits outside the database, so a write
    to it survives a later refusal of the same request. Kiosk borrow requests
    wait as `pending` until an administrator approves (performing the borrow)
    or rejects them.
 */
module Kiosk {
  import opened Base
  import opened Time
  import opened Store
  import opened Circulation

  type Sessions = map<string, MemberId>

  /** `start-session`: a missing or falsy (zero) member id is refused (400);
      otherwise a new token is bound to that member. Nothing is removed.
      `newToken` stands for the random token the handler draws. */
  function StartSession(s: Sessions, memberArg: Option<int>, newToken: string): (r: Result<Sessions>)
    ensures !GivenId(memberArg) <==> r == Fail(Status(400), MissingParameters)
    ensures r.Ok? ==>
              && r.value.Keys == s.Keys + {newToken}
              && r.value[newToken] == memberArg.value
              && (forall t :: t in s && t != newToken ==> r.value[t] == s[t])
  {
    if !GivenId(memberArg) then Fail(Status(400), MissingParameters)
    else Ok(s[newToken := memberArg.value])
  }

  /** `validate-session`: the member of a known token, else 401. */
  function ValidateSession(s: Sessions, token: Option<string>): (r: Result<MemberId>)
    ensures r.Ok? <==> Given(token) && token.value in s
    ensures r.Ok? ==> r.value == s[token.value]
    ensures r.Fail? ==> r == Fail(Status(401), InvalidSession)
  {
    if Given(token) && token.value in s then Ok(s[token.value]) else Fail(Status(401), InvalidSession)
  }

  /** A session just started validates to the member it was started for. */
  lemma StartThenValidate(s: Sessions, memberArg: Option<int>, newToken: string)
    requires StartSession(s, memberArg, newToken).Ok? && newToken != ""
    ensures ValidateSession(StartSession(s, memberArg, newToken).value, Some(newToken)) == Ok(memberArg.value)
    ensures forall t :: t in s && t != newToken ==>
              ValidateSession(StartSession(s, memberArg, newToken).value, Some(t)) == ValidateSession(s, Some(t))
  {
  }

  /** The ownership test of `user-data` and `user-requests`: the token is given
      and bound to exactly the member in the path. */
  predicate SessionOwns(s: Sessions, token: Option<string>, m: MemberId) {
    Given(token) && token.value in s && s[token.value] == m
  }

  /** The member a kiosk request acts for whenever ownership holds is the one validation reports. */
  lemma OwnershipMatchesValidation(s: Sessions, token: Option<string>, m: MemberId)
    ensures SessionOwns(s, token, m) <==> ValidateSession(s, token) == Ok(m)
  {
  }

  function PendingCountOf(rs: seq<KioskRequest>, m: MemberId): nat {
    if |rs| == 0 then 0
    else PendingCountOf(rs[..|rs| - 1], m) + (if rs[|rs| - 1].member == m && rs[|rs| - 1].status == Pending then 1 else 0)
  }

  /** What `user-data` reports: open loans and pending kiosk requests. */
  datatype UserSummary = UserSummary(activeBooks: nat, pendingRequests: nat)

  /** `user-data`: refused with 401 unless the token owns the member, 404 for
      an unknown member. */
  function UserData(st: Library, s: Sessions, token: Option<string>, m: MemberId): (r: Result<UserSummary>)
    ensures !SessionOwns(s, token, m) ==> r == Fail(Status(401), InvalidSession)
    ensures SessionOwns(s, token, m) && !st.HasMember(m) ==> r == Fail(Status(404), MemberNotFound)
    ensures r.Ok? <==> SessionOwns(s, token, m) && st.HasMember(m)
    ensures r.Ok? ==> r.value.activeBooks == OpenCountOf(st.loans, m)
  {
    if !SessionOwns(s, token, m) then Fail(Status(401), InvalidSession)
    else if !st.HasMember(m) then Fail(Status(404), MemberNotFound)
    else Ok(UserSummary(OpenCountOf(st.loans, m), PendingCountOf(st.kioskRequests, m)))
  }

  /** Ids of the member's kiosk requests whose book still exists, newest first. */
  function RequestsOf(st: Library, m: MemberId, upto: nat): (ids: seq<nat>)
    requires upto <= |st.kioskRequests|
    ensures forall k :: 0 <= k < |ids| ==> ids[k] < upto && st.kioskRequests[ids[k]].member == m && st.kioskRequests[ids[k]].isbn in st.books
    ensures forall k, l :: 0 <= k < l < |ids| ==> ids[k] > ids[l]
    ensures forall i :: 0 <= i < upto && st.kioskRequests[i].member == m && st.kioskRequests[i].isbn in st.books ==> i in ids
  {
    if upto == 0 then []
    else
      var i := upto - 1;
      var rest := RequestsOf(st, m, i);
      if st.kioskRequests[i].member == m && st.kioskRequests[i].isbn in st.books then [i] + rest else rest
  }

  /** `user-requests`: under the same ownership test, the member's twenty newest
      requests (requests of deleted books drop out of the join). */
  function UserRequests(st: Library, s: Sessions, token: Option<string>, m: MemberId): (r: Result<seq<nat>>)
    ensures r.Fail? <==> !SessionOwns(s, token, m)
    ensures r.Fail? ==> r == Fail(Status(401), InvalidSession)
    ensures r.Ok? ==> |r.value| <= 20
    ensures r.Ok? ==> forall k :: 0 <= k < |r.value| ==>
              r.value[k] < |st.kioskRequests| && st.kioskRequests[r.value[k]].member == m
    ensures r.Ok? ==> forall k, l :: 0 <= k < l < |r.value| ==> r.value[k] > r.value[l]
    // exactly the newest twenty of all the member's requests
    ensures r.Ok? ==>
              var all := RequestsOf(st, m, |st.kioskRequests|);
              r.value == (if |all| <= 20 then all else all[..20])
  {
    if !SessionOwns(s, token, m) then Fail(Status(401), InvalidSession)
    else
      var all := RequestsOf(st, m, |st.kioskRequests|);
      Ok(if |all| <= 20 then all else all[..20])
  }

  // ---------------------------------------------------------------------------
  // request-borrow

  function HasPendingBorrow(rs: seq<KioskRequest>, m: MemberId, isbn: Isbn): (b: bool)
    ensures b <==> exists i :: 0 <= i < |rs| && rs[i].member == m && rs[i].isbn == isbn && rs[i].kind == BorrowKind && rs[i].status == Pending
  {
    if |rs| == 0 then false
    else
      var last := rs[|rs| - 1];
      assert forall i :: 0 <= i < |rs| - 1 ==> rs[..|rs| - 1][i] == rs[i];
      HasPendingBorrow(rs[..|rs| - 1], m, isbn) ||
        (last.member == m && last.isbn == isbn && last.kind == BorrowKind && last.status == Pending)
  }

  const KioskNote: string := "Kiosk self-service talebi"

  /** `request-borrow`: missing ISBN or token 400, unknown token 401, unknown
      book 404, unknown member 404, no free copy 400, a pending borrow request
      for the same book 400; otherwise one new pending borrow request. */
  function RequestBorrow(st: Library, s: Sessions, isbn: Option<string>, token: Option<string>): (r: Result<Library>)
    ensures !Given(isbn) || !Given(token) ==> r == Fail(Status(400), MissingParameters)
    ensures Given(isbn) && Given(token) && token.value !in s ==> r == Fail(Status(401), InvalidSession)
    ensures Given(isbn) && Given(token) && token.value in s && isbn.value !in st.books ==>
              r == Fail(Status(404), BookNotFound)
    ensures Given(isbn) && Given(token) && token.value in s && isbn.value in st.books
            && !st.HasMember(s[token.value]) ==>
              r == Fail(Status(404), MemberNotFound)
    ensures Given(isbn) && Given(token) && token.value in s && isbn.value in st.books
            && st.HasMember(s[token.value]) && st.books[isbn.value].quantity <= OpenCount(st.loans, isbn.value) ==>
              r == Fail(Status(400), Unavailable)
    ensures Given(isbn) && Given(token) && token.value in s && isbn.value in st.books
            && st.HasMember(s[token.value]) && OpenCount(st.loans, isbn.value) < st.books[isbn.value].quantity
            && HasPendingBorrow(st.kioskRequests, s[token.value], isbn.value) ==>
              r == Fail(Status(400), DuplicateRequest)
    ensures r.Ok? <==>
              && Given(isbn) && Given(token) && token.value in s
              && isbn.value in st.books && st.HasMember(s[token.value])
              && OpenCount(st.loans, isbn.value) < st.books[isbn.value].quantity
              && !HasPendingBorrow(st.kioskRequests, s[token.value], isbn.value)
    ensures r.Ok? ==>
              r.value == st.(kioskRequests := st.kioskRequests +
                               [KioskRequest(s[token.value], isbn.value, BorrowKind, Pending, token.value, KioskNote)])
  {
    if !Given(isbn) || !Given(token) then Fail(Status(400), MissingParameters)
    else if token.value !in s then Fail(Status(401), InvalidSession)
    else
      var m := s[token.value];
      if isbn.value !in st.books then Fail(Status(404), BookNotFound)
      else if !st.HasMember(m) then Fail(Status(404), MemberNotFound)
      else if st.books[isbn.value].quantity <= OpenCount(st.loans, isbn.value) then Fail(Status(400), Unavailable)
      else if HasPendingBorrow(st.kioskRequests, m, isbn.value) then Fail(Status(400), DuplicateRequest)
      else Ok(st.(kioskRequests := st.kioskRequests + [KioskRequest(m, isbn.value, BorrowKind, Pending, token.value, KioskNote)]))
  }

  /** A member never holds two pending borrow requests for one book. */
  ghost predicate NoDuplicatePending(rs: seq<KioskRequest>) {
    forall i, j ::
      (0 <= i < j < |rs| && rs[i].kind == BorrowKind && rs[j].kind == BorrowKind &&
       rs[i].status == Pending && rs[j].status == Pending && rs[i].member == rs[j].member) ==> rs[i].isbn != rs[j].isbn
  }

  lemma RequestBorrowNoDuplicates(st: Library, s: Sessions, isbn: Option<string>, token: Option<string>)
    requires NoDuplicatePending(st.kioskRequests) && RequestBorrow(st, s, isbn, token).Ok?
    ensures NoDuplicatePending(RequestBorrow(st, s, isbn, token).value.kioskRequests)
  {
  }

  // ---------------------------------------------------------------------------
  // process-return

  predicate StartsWith(t: string, prefix: string) {
    |prefix| <= |t| && t[..|prefix|] == prefix
  }

  /** The session table after `process-return` has read its arguments: a
      supplied member id is bound to the given token, or, for a `temp_` token,
      to a newToken token instead (the temporary one is not stored). */
  function ReturnSessions(s: Sessions, token: Option<string>, memberArg: Option<int>, newToken: string): (r: Sessions)
    ensures s.Keys <= r.Keys
    ensures !GivenId(memberArg) || !Given(token) ==> r == s
    ensures GivenId(memberArg) && Given(token) && StartsWith(token.value, "temp_") ==> r == s[newToken := memberArg.value]
    ensures GivenId(memberArg) && Given(token) && !StartsWith(token.value, "temp_") ==> r == s[token.value := memberArg.value]
  {
    if GivenId(memberArg) && Given(token) then
      if StartsWith(token.value, "temp_") then s[newToken := memberArg.value] else s[token.value := memberArg.value]
    else s
  }

  /** The member a `process-return` acts for: the supplied member id when
      there is a non-zero one, otherwise the token's member. */
  function ReturnMember(s: Sessions, token: Option<string>, memberArg: Option<int>): (r: Option<MemberId>)
    ensures GivenId(memberArg) ==> r == memberArg
    ensures !GivenId(memberArg) ==> (r.Some? <==> Given(token) && token.value in s)
    ensures !GivenId(memberArg) && r.Some? ==> r.value == s[token.value]
  {
    if GivenId(memberArg) then memberArg
    else if Given(token) && token.value in s then Some(s[token.value])
    else None
  }

  /** `process-return`: missing ISBN 400; a supplied member id wins over the
      token (and rebinds it, see `ReturnSessions`); with neither, 400; an
      unknown token 401; unknown book or member 404; no open loan of this
      book by this member 400. Otherwise the first such loan goes through
      `process_return_transaction`. The session table keeps its rebinding
      even when the request is then refused. */
  function ProcessKioskReturn(st: Library, s: Sessions, isbn: Option<string>, token: Option<string>, memberArg: Option<int>,
                              newToken: string, now: int, user: Option<UserId>): (r: (Sessions, Result<Library>))
    ensures s.Keys <= r.0.Keys
    ensures !Given(isbn) ==> r == (s, Fail(Status(400), MissingParameters))
    ensures Given(isbn) ==> r.0 == ReturnSessions(s, token, memberArg, newToken)
    ensures Given(isbn) && !GivenId(memberArg) && !Given(token) ==> r.1 == Fail(Status(400), MissingParameters)
    ensures Given(isbn) && !GivenId(memberArg) && Given(token) && token.value !in s ==> r.1 == Fail(Status(401), InvalidSession)
    ensures Given(isbn) && ReturnMember(s, token, memberArg).Some? && isbn.value !in st.books ==>
              r.1 == Fail(Status(404), BookNotFound)
    ensures Given(isbn) && ReturnMember(s, token, memberArg).Some? && isbn.value in st.books
            && !st.HasMember(ReturnMember(s, token, memberArg).value) ==>
              r.1 == Fail(Status(404), MemberNotFound)
    ensures Given(isbn) && ReturnMember(s, token, memberArg).Some? && isbn.value in st.books
            && st.HasMember(ReturnMember(s, token, memberArg).value)
            && (forall i :: 0 <= i < |st.loans| ==> !OpenPair(st.loans[i], isbn.value, ReturnMember(s, token, memberArg).value)) ==>
              r.1 == Fail(Status(400), NoActiveLoan)
    ensures r.1.Ok? <==>
              && Given(isbn)
              && ReturnMember(s, token, memberArg).Some?
              && isbn.value in st.books
              && st.HasMember(ReturnMember(s, token, memberArg).value)
              && FindOpen(st.loans, isbn.value, ReturnMember(s, token, memberArg).value).Some?
    ensures r.1.Ok? ==>
              r.1 == ProcessReturn(st, FindOpen(st.loans, isbn.value, ReturnMember(s, token, memberArg).value), now, user)
  {
    if !Given(isbn) then (s, Fail(Status(400), MissingParameters))
    else
      var s' := ReturnSessions(s, token, memberArg, newToken);
      if !GivenId(memberArg) && !Given(token) then (s', Fail(Status(400), MissingParameters))
      else if !GivenId(memberArg) && token.value !in s then (s', Fail(Status(401), InvalidSession))
      else
        var m := ReturnMember(s, token, memberArg).value;
        if isbn.value !in st.books then (s', Fail(Status(404), BookNotFound))
        else if !st.HasMember(m) then (s', Fail(Status(404), MemberNotFound))
        else
          var open := FindOpen(st.loans, isbn.value, m);
          if open.None? then (s', Fail(Status(400), NoActiveLoan))
          else (s', ProcessReturn(st, open, now, user))
  }

  /** A kiosk return closes exactly the loan the acting member holds on that
      book; it never touches that member's counter nor anyone's suspension. */
  lemma KioskReturnClosesOwnLoan(st: Library, s: Sessions, isbn: Option<string>, token: Option<string>, memberArg: Option<int>,
                                 newToken: string, now: int, user: Option<UserId>)
    requires ProcessKioskReturn(st, s, isbn, token, memberArg, newToken, now, user).1.Ok?
    ensures var st' := ProcessKioskReturn(st, s, isbn, token, memberArg, newToken, now, user).1.value;
            var m := ReturnMember(s, token, memberArg).value;
            var id := FindOpen(st.loans, isbn.value, m).value;
            && st.loans[id].member == m && st.loans[id].isbn == isbn.value
            && st'.loans[id].returned == Some(DateTime(now))
            && st'.members == st.members
  {
  }

  // ---------------------------------------------------------------------------
  // Administrator actions on kiosk requests

  /** The status values the update endpoint accepts. */
  function ParseStatus(t: string): (r: Option<RequestStatus>)
    ensures r.Some? <==> t in {"pending", "approved", "rejected", "completed"}
  {
    if t == "pending" then Some(Pending)
    else if t == "approved" then Some(Approved)
    else if t == "rejected" then Some(Rejected)
    else if t == "completed" then Some(Completed)
    else None
  }

  predicate HasKioskRequest(st: Library, id: int) {
    0 <= id < |st.kioskRequests|
  }

  /** `PUT kiosk-request/<id>`: unknown id 404; the status changes only to one
      of the four accepted values and stays as it was for any other; the notes
      change when given. */
  function AdminUpdate(st: Library, id: int, newStatus: Option<string>, newNotes: Option<string>): (r: Result<Library>)
    ensures r.Ok? <==> HasKioskRequest(st, id)
    ensures r.Fail? ==> r == Fail(Status(404), NotFound)
    ensures r.Ok? ==> |r.value.kioskRequests| == |st.kioskRequests|
    ensures r.Ok? ==>
              var q := st.kioskRequests[id];
              var q' := r.value.kioskRequests[id];
              && r.value == st.(kioskRequests := st.kioskRequests[id := q'])
              && (newStatus.None? || ParseStatus(newStatus.value).None? ==> q'.status == q.status)
              && (newStatus.Some? && ParseStatus(newStatus.value).Some? ==> q'.status == ParseStatus(newStatus.value).value)
              && q'.notes == (if newNotes.Some? then newNotes.value else q.notes)
              && q'.member == q.member && q'.isbn == q.isbn && q'.kind == q.kind && q'.token == q.token
  {
    if !HasKioskRequest(st, id) then Fail(Status(404), NotFound)
    else
      var q := st.kioskRequests[id];
      var parsed := if newStatus.Some? then ParseStatus(newStatus.value) else None;
      var q1 := if parsed.Some? then q.(status := parsed.value) else q;
      var q2 := if newNotes.Some? then q1.(notes := newNotes.value) else q1;
      Ok(st.(kioskRequests := st.kioskRequests[id := q2]))
  }

  /** An update that does not set `pending` keeps the no-duplicate invariant:
      it can only move a request out of `pending`, never into it. */
  lemma {:induction false} AdminUpdateKeepsNoDuplicates(st: Library, id: int, newStatus: Option<string>, newNotes: Option<string>)
    requires NoDuplicatePending(st.kioskRequests) && AdminUpdate(st, id, newStatus, newNotes).Ok?
    requires newStatus.None? || newStatus.value != "pending"
    ensures NoDuplicatePending(AdminUpdate(st, id, newStatus, newNotes).value.kioskRequests)
  {
    var rs := st.kioskRequests;
    var rs' := AdminUpdate(st, id, newStatus, newNotes).value.kioskRequests;
    forall i | 0 <= i < |rs'| && rs'[i].status == Pending
      ensures rs[i].status == Pending && rs'[i].member == rs[i].member && rs'[i].isbn == rs[i].isbn && rs'[i].kind == rs[i].kind
    {
      if i == id {
        assert newStatus.None? || ParseStatus(newStatus.value) != Some(Pending);
      }
    }
  }

  /** Setting a request back to `pending` can break it: a rejected request
      revived next to a pending one for the same member and book. */
  lemma AdminUpdateCanRevive()
    ensures var q := KioskRequest(1, "X", BorrowKind, Pending, "t", KioskNote);
            var st := Library(map[], [], [], [], [], [], [q, q.(status := Rejected)], map[]);
            && NoDuplicatePending(st.kioskRequests)
            && AdminUpdate(st, 1, Some("pending"), None).Ok?
            && !NoDuplicatePending(AdminUpdate(st, 1, Some("pending"), None).value.kioskRequests)
  {
    var q := KioskRequest(1, "X", BorrowKind, Pending, "t", KioskNote);
    var st := Library(map[], [], [], [], [], [], [q, q.(status := Rejected)], map[]);
    var rs' := AdminUpdate(st, 1, Some("pending"), None).value.kioskRequests;
    assert rs'[0] == q && rs'[1] == q;
  }

  /** `approve`: unknown id 404, not pending 400. A borrow request needs its
      book and member (404) and performs `process_borrow_transaction`; if that
      refuses, its refusal is returned and the request stays pending. On
      success, or for any other kind of request, the request is `completed`. */
  function AdminApprove(st: Library, id: int, now: int, p: Policy): (r: Result<Library>)
    ensures !HasKioskRequest(st, id) ==> r == Fail(Status(404), NotFound)
    ensures HasKioskRequest(st, id) && st.kioskRequests[id].status != Pending ==> r == Fail(Status(400), AlreadyProcessed)
    ensures r.Ok? ==> HasKioskRequest(st, id) && st.kioskRequests[id].status == Pending
    ensures r.Ok? ==>
              var q := st.kioskRequests[id];
              && |r.value.kioskRequests| == |st.kioskRequests|
              && r.value.kioskRequests == st.kioskRequests[id := q.(status := Completed)]
    ensures HasKioskRequest(st, id) && st.kioskRequests[id].status == Pending && st.kioskRequests[id].kind.OtherKind? ==>
              r == Ok(st.(kioskRequests := st.kioskRequests[id := st.kioskRequests[id].(status := Completed)]))
    ensures HasKioskRequest(st, id) && st.kioskRequests[id].status == Pending && st.kioskRequests[id].kind == BorrowKind
            && (st.kioskRequests[id].isbn !in st.books || !st.HasMember(st.kioskRequests[id].member)) ==>
              r == Fail(Status(404), NotFound)
    ensures r.Ok? && st.kioskRequests[id].kind == BorrowKind ==>
              var q := st.kioskRequests[id];
              && q.isbn in st.books && st.HasMember(q.member)
              && r.value.loans == st.loans + [NewLoan(q.isbn, q.member, now, p.maxBorrowDays)]
              && ProcessBorrow(st, q.isbn, q.member, now, p).Ok?
              && r.value == ProcessBorrow(st, q.isbn, q.member, now, p).value.(
                   kioskRequests := st.kioskRequests[id := q.(status := Completed)])
    ensures HasKioskRequest(st, id) && st.kioskRequests[id].status == Pending && st.kioskRequests[id].kind == BorrowKind &&
            st.kioskRequests[id].isbn in st.books && st.HasMember(st.kioskRequests[id].member) ==>
              && (r.Fail? <==> ProcessBorrow(st, st.kioskRequests[id].isbn, st.kioskRequests[id].member, now, p).Fail?)
              && (r.Fail? ==> r == ProcessBorrow(st, st.kioskRequests[id].isbn, st.kioskRequests[id].member, now, p))
  {
    if !HasKioskRequest(st, id) then Fail(Status(404), NotFound)
    else
      var q := st.kioskRequests[id];
      if q.status != Pending then Fail(Status(400), AlreadyProcessed)
      else if q.kind.OtherKind? then Ok(st.(kioskRequests := st.kioskRequests[id := q.(status := Completed)]))
      else if q.isbn !in st.books || !st.HasMember(q.member) then Fail(Status(404), NotFound)
      else
        var borrowed := ProcessBorrow(st, q.isbn, q.member, now, p);
        if borrowed.Fail? then borrowed
        else Ok(borrowed.value.(kioskRequests := st.kioskRequests[id := q.(status := Completed)]))
  }

  /** The reason used when the request body has no `reason` key. An explicit
      JSON `null` is not told apart from a missing key here; the handler
      would write `Reddedildi: None` for it. */
  const DefaultRejectReason: string := "Sebep belirtilmedi."

  /** `reject`: unknown id 404, not pending 400; otherwise `rejected`, with the
      reason (or the default one) recorded in the notes. */
  function AdminReject(st: Library, id: int, reason: Option<string>): (r: Result<Library>)
    ensures !HasKioskRequest(st, id) ==> r == Fail(Status(404), NotFound)
    ensures HasKioskRequest(st, id) && st.kioskRequests[id].status != Pending ==> r == Fail(Status(400), AlreadyProcessed)
    ensures r.Ok? <==> HasKioskRequest(st, id) && st.kioskRequests[id].status == Pending
    ensures r.Ok? ==>
              var q := st.kioskRequests[id];
              var why := if reason.Some? then reason.value else DefaultRejectReason;
              && r.value == st.(kioskRequests := st.kioskRequests[id := q.(status := Rejected, notes := "Reddedildi: " + why)])
  {
    if !HasKioskRequest(st, id) then Fail(Status(404), NotFound)
    else
      var q := st.kioskRequests[id];
      if q.status != Pending then Fail(Status(400), AlreadyProcessed)
      else
        var why := if reason.Some? then reason.value else DefaultRejectReason;
        Ok(st.(kioskRequests := st.kioskRequests[id := q.(status := Rejected, notes := "Reddedildi: " + why)]))
  }

  /** An administrator decides a request once: after an approval or a
      rejection, both are refused with 400. */
  lemma {:induction false} AdminDecidesOnce(st: Library, id: int, now: int, later: int, p: Policy, reason: Option<string>)
    ensures AdminApprove(st, id, now, p).Ok? ==>
              && AdminApprove(AdminApprove(st, id, now, p).value, id, later, p) == Fail(Status(400), AlreadyProcessed)
              && AdminReject(AdminApprove(st, id, now, p).value, id, reason) == Fail(Status(400), AlreadyProcessed)
    ensures AdminReject(st, id, reason).Ok? ==>
              && AdminApprove(AdminReject(st, id, reason).value, id, later, p) == Fail(Status(400), AlreadyProcessed)
              && AdminReject(AdminReject(st, id, reason).value, id, reason) == Fail(Status(400), AlreadyProcessed)
  {
    if AdminApprove(st, id, now, p).Ok? {
      assert AdminApprove(st, id, now, p).value.kioskRequests[id].status == Completed;
    }
    if AdminReject(st, id, reason).Ok? {
      assert AdminReject(st, id, reason).value.kioskRequests[id].status == Rejected;
    }
  }
}

=== FILE: loans_api.dfy ===
/** The loan endpoints of api.py: availability, borrow, return, renew and
    quick return. Each keeps its own guards and its own bookkeeping; they do
    not share the utils.py transactions.
 */
module LoansApi {
  import opened Base
  import opened Time
  import opened Store
  import opened Fines
  import opened Circulation

  // ---------------------------------------------------------------------------
  // Availability

  /** Copies on the shelf as the book listings report them: copies minus open
      loans, not clamped. A specification helper: the reference figure
      `PdfStock` and the stock lemmas are stated against. */
  function Availability(st: Library, isbn: Isbn): int
    requires isbn in st.books
  {
    st.books[isbn].quantity - OpenCount(st.loans, isbn)
  }

  /** The stock figure of the PDF inventory list, the one place that clamps at zero. */
  function PdfStock(st: Library, isbn: Isbn): (n: int)
    requires isbn in st.books
    ensures n >= 0
    ensures n >= Availability(st, isbn)
    ensures n == 0 || n == Availability(st, isbn)
  {
    if Availability(st, isbn) < 0 then 0 else Availability(st, isbn)
  }

  /** While no ISBN is over-lent, the clamp never bites: the PDF figure and
      the listed availability agree. */
  lemma ClampIsIdentityWithinStock(st: Library, isbn: Isbn)
    requires isbn in st.books && WithinStock(st)
    ensures PdfStock(st, isbn) == Availability(st, isbn)
  {
  }

  // ---------------------------------------------------------------------------
  // api_borrow_book

  /** The due string `api_borrow_book` stores: computed with a time of day when
      none is given; a date-only string (length ten) gets ` 23:59:59`
      appended; a longer string is kept as it is. */
  function ApiDue(arg: DateText, now: int, maxBorrowDays: int): (due: DateText)
    ensures arg.Garbled? <==> due.Garbled?
    ensures !arg.Garbled? ==> due.DateTime?
    ensures arg.Missing? ==> due == DateTime(AddDays(now, maxBorrowDays))
    ensures arg.DateTime? ==> due == arg
  {
    match arg
    case Missing => DateTime(AddDays(now, maxBorrowDays))
    case Garbled => Garbled
    case DateOnly(d) => DateTime(d * SecondsPerDay + (SecondsPerDay - 1))
    case DateTime(_) => arg
  }

  /** A date-only due string becomes the last second of that same day. */
  lemma DateOnlyDueIsLastSecond(d: int, now: int, days: int)
    ensures Day(ApiDue(DateOnly(d), now, days).at) == d
    ensures Day(ApiDue(DateOnly(d), now, days).at + 1) == d + 1
  {
    DayOfSpan(ApiDue(DateOnly(d), now, days).at, d);
    DayOfSpan(ApiDue(DateOnly(d), now, days).at + 1, d + 1);
  }

  /** `api_borrow_book`'s suspension test: a stored value that does not parse
      is taken as now, so it never suspends. */
  predicate ApiSuspended(s: Suspension, now: int) {
    s.Until? && now < s.at
  }

  /** `api_borrow_book`: member by school number (404), suspension (403), book
      (404), a free copy (400); then one new open loan and the book's
      counters. No duplicate-loan check, no per-member limit, and the member's
      counters are not touched. */
  function ApiBorrow(st: Library, isbn: Isbn, schoolNo: string, dueArg: DateText, now: int, p: Policy): (r: Result<Library>)
    // refusals, in order; a refusal writes nothing
    ensures FindBySchoolNo(st.members, schoolNo).None? ==> r == Fail(Status(404), MemberNotFound)
    ensures FindBySchoolNo(st.members, schoolNo).Some?
            && ApiSuspended(st.MemberAt(FindBySchoolNo(st.members, schoolNo).value).suspension, now) ==>
              r == Fail(Status(403), Suspended)
    ensures FindBySchoolNo(st.members, schoolNo).Some?
            && !ApiSuspended(st.MemberAt(FindBySchoolNo(st.members, schoolNo).value).suspension, now)
            && isbn !in st.books ==>
              r == Fail(Status(404), BookNotFound)
    ensures FindBySchoolNo(st.members, schoolNo).Some?
            && !ApiSuspended(st.MemberAt(FindBySchoolNo(st.members, schoolNo).value).suspension, now)
            && isbn in st.books && st.books[isbn].quantity <= OpenCount(st.loans, isbn) ==>
              r == Fail(Status(400), Unavailable)
    ensures r.Ok? <==>
              && FindBySchoolNo(st.members, schoolNo).Some?
              && !ApiSuspended(st.MemberAt(FindBySchoolNo(st.members, schoolNo).value).suspension, now)
              && isbn in st.books
              && OpenCount(st.loans, isbn) < st.books[isbn].quantity
    // success: one new open loan and the book's counters; members untouched
    ensures r.Ok? ==>
              var m := FindBySchoolNo(st.members, schoolNo).value;
              var book := st.books[isbn];
              && r.value == st.(
                   loans := st.loans + [Loan(isbn, m, now, ApiDue(dueArg, now, p.maxBorrowDays), None, 0, None)],
                   books := st.books[isbn := book.(totalBorrowCount := book.totalBorrowCount + 1, lastBorrowed := Some(now))])
              && OpenCount(r.value.loans, isbn) <= r.value.books[isbn].quantity
  {
    var found := FindBySchoolNo(st.members, schoolNo);
    if found.None? then Fail(Status(404), MemberNotFound)
    else
      var m := found.value;
      if ApiSuspended(st.MemberAt(m).suspension, now) then Fail(Status(403), Suspended)
      else if isbn !in st.books then Fail(Status(404), BookNotFound)
      else if st.books[isbn].quantity <= OpenCount(st.loans, isbn) then Fail(Status(400), Unavailable)
      else
        var loan := Loan(isbn, m, now, ApiDue(dueArg, now, p.maxBorrowDays), None, 0, None);
        var book := st.books[isbn];
        OpenCountAppend(st.loans, loan, isbn);
        Ok(st.(loans := st.loans + [loan],
               books := st.books[isbn := book.(totalBorrowCount := book.totalBorrowCount + 1, lastBorrowed := Some(now))]))
  }

  /** `api_borrow_book` keeps every ISBN within its stock. */
  lemma {:induction false} ApiBorrowKeepsStock(st: Library, isbn: Isbn, schoolNo: string, dueArg: DateText, now: int, p: Policy)
    requires WithinStock(st) && ApiBorrow(st, isbn, schoolNo, dueArg, now, p).Ok?
    ensures WithinStock(ApiBorrow(st, isbn, schoolNo, dueArg, now, p).value)
  {
    var st' := ApiBorrow(st, isbn, schoolNo, dueArg, now, p).value;
    var m := FindBySchoolNo(st.members, schoolNo).value;
    var loan := Loan(isbn, m, now, ApiDue(dueArg, now, p.maxBorrowDays), None, 0, None);
    forall b | b in st'.books
      ensures OpenCount(st'.loans, b) <= st'.books[b].quantity
    {
      OpenCountAppend(st.loans, loan, b);
    }
  }

  /** `api_borrow_book` leaves `current_borrowed` behind: from a state where
      the counters agree, a successful borrow makes them disagree for the
      borrower. */
  lemma {:induction false} ApiBorrowDesyncsCounter(st: Library, isbn: Isbn, schoolNo: string, dueArg: DateText, now: int, p: Policy)
    requires CountersAgree(st) && ApiBorrow(st, isbn, schoolNo, dueArg, now, p).Ok?
    ensures !CountersAgree(ApiBorrow(st, isbn, schoolNo, dueArg, now, p).value)
  {
    var st' := ApiBorrow(st, isbn, schoolNo, dueArg, now, p).value;
    var m := FindBySchoolNo(st.members, schoolNo).value;
    var loan := Loan(isbn, m, now, ApiDue(dueArg, now, p.maxBorrowDays), None, 0, None);
    OpenCountOfAppend(st.loans, loan, m);
    assert st'.MemberAt(m).currentBorrowed != OpenCountOf(st'.loans, m);
  }

  // ---------------------------------------------------------------------------
  // api_return_book

  /** `api_return_book`: member by school number and the first open loan of
      (isbn, member), each 404 when missing; then the loan is stamped
      returned now and the member's `current_borrowed` goes down by one unless
      it is already zero. No fine, no suspension. */
  function ApiReturn(st: Library, isbn: Isbn, schoolNo: string, now: int): (r: Result<Library>)
    ensures r.Ok? <==>
              FindBySchoolNo(st.members, schoolNo).Some? &&
              exists i :: 0 <= i < |st.loans| && OpenPair(st.loans[i], isbn, FindBySchoolNo(st.members, schoolNo).value)
    ensures FindBySchoolNo(st.members, schoolNo).None? ==> r == Fail(Status(404), MemberNotFound)
    ensures r.Fail? && FindBySchoolNo(st.members, schoolNo).Some? ==> r == Fail(Status(404), NoActiveLoan)
    ensures r.Ok? ==>
              var m := FindBySchoolNo(st.members, schoolNo).value;
              var id := FindOpen(st.loans, isbn, m).value;
              var member := st.MemberAt(m);
              // only that loan and that member's counter move
              r.value == st.(
                loans := st.loans[id := st.loans[id].(returned := Some(DateTime(now)))],
                members := st.members[m - 1 := member.(currentBorrowed := if member.currentBorrowed > 0 then member.currentBorrowed - 1 else 0)])
  {
    var found := FindBySchoolNo(st.members, schoolNo);
    if found.None? then Fail(Status(404), MemberNotFound)
    else
      var m := found.value;
      var open := FindOpen(st.loans, isbn, m);
      if open.None? then Fail(Status(404), NoActiveLoan)
      else
        var id := open.value;
        var member := st.MemberAt(m);
        var member' := if member.currentBorrowed > 0 then member.(currentBorrowed := member.currentBorrowed - 1) else member;
        Ok(st.(loans := st.loans[id := st.loans[id].(returned := Some(DateTime(now)))],
               members := st.members[m - 1 := member']))
  }

  /** `current_borrowed` equals the member's open loans as long as loans move
      only through `process_borrow_transaction` and `api_return_book`: both
      preserve the agreement, and both keep every ISBN within its stock. */
  lemma {:induction false} ApiReturnPreserves(st: Library, isbn: Isbn, schoolNo: string, now: int)
    requires ApiReturn(st, isbn, schoolNo, now).Ok?
    ensures CountersAgree(st) ==> CountersAgree(ApiReturn(st, isbn, schoolNo, now).value)
    ensures WithinStock(st) ==> WithinStock(ApiReturn(st, isbn, schoolNo, now).value)
  {
    var st' := ApiReturn(st, isbn, schoolNo, now).value;
    var m := FindBySchoolNo(st.members, schoolNo).value;
    var id := FindOpen(st.loans, isbn, m).value;
    var l := st.loans[id].(returned := Some(DateTime(now)));
    forall k | st'.HasMember(k)
      ensures OpenCountOf(st'.loans, k) + (if k == m then 1 else 0) == OpenCountOf(st.loans, k)
    {
      OpenCountOfUpdate(st.loans, id, l, k);
    }
    forall b | b in st'.books
      ensures OpenCount(st'.loans, b) <= OpenCount(st.loans, b)
    {
      OpenCountUpdate(st.loans, id, l, b);
    }
    if CountersAgree(st) {
      OpenCountOfPositive(st.loans, id, m);
    }
  }

  /** The agreement survives any interleaving of the two operations. */
  datatype Step = BorrowStep(isbn: Isbn, member: MemberId, now: int) | ReturnStep(isbn: Isbn, schoolNo: string, now: int)

  /** Runs a trace of borrows and returns; a refused step leaves the state as it was. */
  function RunSteps(st: Library, steps: seq<Step>, p: Policy): Library
    decreases |steps|
  {
    if |steps| == 0 then st
    else
      var s := steps[0];
      var next :=
        match s
        case BorrowStep(isbn, m, now) =>
          if isbn in st.books && st.HasMember(m) && ProcessBorrow(st, isbn, m, now, p).Ok?
          then ProcessBorrow(st, isbn, m, now, p).value else st
        case ReturnStep(isbn, no, now) =>
          if ApiReturn(st, isbn, no, now).Ok? then ApiReturn(st, isbn, no, now).value else st;
      RunSteps(next, steps[1..], p)
  }

  lemma {:induction false} RunStepsPreserves(st: Library, steps: seq<Step>, p: Policy)
    requires CountersAgree(st) && WithinStock(st)
    ensures CountersAgree(RunSteps(st, steps, p)) && WithinStock(RunSteps(st, steps, p))
    decreases |steps|
  {
    if |steps| > 0 {
      var s := steps[0];
      match s
      case BorrowStep(isbn, m, now) =>
        if isbn in st.books && st.HasMember(m) && ProcessBorrow(st, isbn, m, now, p).Ok? {
          ProcessBorrowPreserves(st, isbn, m, now, p);
          RunStepsPreserves(ProcessBorrow(st, isbn, m, now, p).value, steps[1..], p);
        } else {
          RunStepsPreserves(st, steps[1..], p);
        }
      case ReturnStep(isbn, no, now) =>
        if ApiReturn(st, isbn, no, now).Ok? {
          ApiReturnPreserves(st, isbn, no, now);
          RunStepsPreserves(ApiReturn(st, isbn, no, now).value, steps[1..], p);
        } else {
          RunStepsPreserves(st, steps[1..], p);
        }
    }
  }

  // ---------------------------------------------------------------------------
  // Renewal

  /** `can_renew` as the transaction list reports it. */
  predicate CanRenew(l: Loan, maxRenew: int) {
    l.Open() && l.renewCount < maxRenew
  }

  /** `api_renew_transaction(id)`: unknown id 404, a loan with a (non-empty)
      return date 400, renewal
      limit 400; the new due date is the old due moment plus the loan period
      (from the old due date, not from now), written with a time of day. A
      due string that parses in neither format raises. */
  function Renew(st: Library, id: int, p: Policy): (r: Result<Library>)
    ensures !st.HasLoan(id) ==> r == Fail(Status(404), NotFound)
    ensures st.HasLoan(id) && st.loans[id].MarkedReturned() ==> r == Fail(Status(400), AlreadyReturned)
    ensures st.HasLoan(id) && !st.loans[id].MarkedReturned() && st.loans[id].renewCount >= p.maxRenewCount ==>
              r == Fail(Status(400), RenewLimitReached)
    ensures r.Ok? <==>
              && st.HasLoan(id) && !st.loans[id].MarkedReturned()
              && st.loans[id].renewCount < p.maxRenewCount && Parses(st.loans[id].due)
    ensures r.Ok? ==>
              var l := st.loans[id];
              && |r.value.loans| == |st.loans|
              && r.value == st.(loans := st.loans[id := r.value.loans[id]])
              && r.value.loans[id] == l.(due := DateTime(AddDays(Moment(l.due), p.maxBorrowDays)), renewCount := l.renewCount + 1)
  {
    if !st.HasLoan(id) then Fail(Status(404), NotFound)
    else
      var l := st.loans[id];
      if l.MarkedReturned() then Fail(Status(400), AlreadyReturned)
      else if l.renewCount >= p.maxRenewCount then Fail(Status(400), RenewLimitReached)
      else if !Parses(l.due) then Fail(Status(500), Crash)
      else
        var l' := l.(due := DateTime(AddDays(Moment(l.due), p.maxBorrowDays)), renewCount := l.renewCount + 1);
        Ok(st.(loans := st.loans[id := l']))
  }

  /** `can_renew` holds exactly for an open loan that passes both of the
      renewal guards. The two disagree only on a stored empty return date:
      the list says such a loan cannot be renewed, the endpoint renews it. */
  lemma CanRenewMatchesGuards(st: Library, id: int, p: Policy)
    requires st.HasLoan(id)
    ensures CanRenew(st.loans[id], p.maxRenewCount) <==>
            st.loans[id].Open() && !(Renew(st, id, p).Fail? && Renew(st, id, p).why in {AlreadyReturned, RenewLimitReached})
    ensures st.loans[id].returned == Some(Missing) ==>
              && !CanRenew(st.loans[id], p.maxRenewCount)
              && (st.loans[id].renewCount < p.maxRenewCount ==>
                    !(Renew(st, id, p).Fail? && Renew(st, id, p).why in {AlreadyReturned, RenewLimitReached}))
  {
  }

  /** With a limit of two, a fresh open loan renews twice, each time by the
      loan period from the previous due date, and the third attempt is refused. */
  lemma {:induction false} TwoRenewalsThenRefused(st: Library, id: int, p: Policy)
    requires st.HasLoan(id) && !st.loans[id].MarkedReturned() && st.loans[id].renewCount == 0
    requires Parses(st.loans[id].due) && p.maxRenewCount == 2
    ensures Renew(st, id, p).Ok?
    ensures Renew(Renew(st, id, p).value, id, p).Ok?
    ensures Renew(Renew(st, id, p).value, id, p).value.loans[id].due ==
            DateTime(AddDays(Moment(st.loans[id].due), 2 * p.maxBorrowDays))
    ensures Renew(Renew(Renew(st, id, p).value, id, p).value, id, p) == Fail(Status(400), RenewLimitReached)
  {
    var s1 := Renew(st, id, p).value;
    assert s1.loans[id].renewCount == 1;
    var s2 := Renew(s1, id, p).value;
    assert s2.loans[id].renewCount == 2;
  }

  // ---------------------------------------------------------------------------
  // Quick return

  /** `api_quick_return(id)`: unknown id 404, a loan with a (non-empty)
      return date 400. The return
      date is today's date alone, the fine is `calculate_fine(due, today)`;
      when it is positive the loan records it, the member (if any) is
      suspended by `StackSuspension`, and a fine record is added. Member
      counters are not touched. `user` is the signed-in user. */
  function QuickReturn(st: Library, id: int, now: int, user: UserId, p: Policy): (r: Result<Library>)
    ensures !st.HasLoan(id) ==> r == Fail(Status(404), NotFound)
    ensures st.HasLoan(id) && st.loans[id].MarkedReturned() ==> r == Fail(Status(400), AlreadyReturned)
    // the one other outcome: a fine for a member whose suspension does not parse
    ensures st.HasLoan(id) && !st.loans[id].MarkedReturned()
            && CalculateFine(st.loans[id].due, DateOnly(Day(now)), now, p.finePerDay) > 0
            && st.HasMember(st.loans[id].member) && st.MemberAt(st.loans[id].member).suspension.Unreadable? ==>
              r == Fail(Status(500), Crash)
    ensures r.Ok? <==>
              && st.HasLoan(id) && !st.loans[id].MarkedReturned()
              && !(&& CalculateFine(st.loans[id].due, DateOnly(Day(now)), now, p.finePerDay) > 0
                   && st.HasMember(st.loans[id].member)
                   && st.MemberAt(st.loans[id].member).suspension.Unreadable?)
    ensures r.Ok? ==>
              var l := st.loans[id];
              var today := DateOnly(Day(now));
              var fine := CalculateFine(l.due, today, now, p.finePerDay);
              var st' := r.value;
              // the loan is closed today and keeps the fine, if any
              && st'.loans == st.loans[id := l.(returned := Some(today),
                                                 fineAmount := if fine > 0 then Some(fine) else l.fineAmount)]
              && st'.fines == st.fines + (if fine > 0 then [Fine(Some(user), l.member, id, fine, Unpaid, None)] else [])
              // a fined member's suspension is stacked; nothing else moves
              && (fine > 0 && st.HasMember(l.member) ==>
                    && StackSuspension(st.MemberAt(l.member).suspension, now).Some?
                    && st' == st.(loans := st'.loans, fines := st'.fines,
                                  members := st.members[l.member - 1 := st.MemberAt(l.member).(
                                               suspension := StackSuspension(st.MemberAt(l.member).suspension, now).value)]))
              && (fine == 0 || !st.HasMember(l.member) ==> st' == st.(loans := st'.loans, fines := st'.fines))
  {
    if !st.HasLoan(id) then Fail(Status(404), NotFound)
    else
      var l := st.loans[id];
      if l.MarkedReturned() then Fail(Status(400), AlreadyReturned)
      else
        var today := DateOnly(Day(now));
        var fine := CalculateFine(l.due, today, now, p.finePerDay);
        if fine == 0 then
          Ok(st.(loans := st.loans[id := l.(returned := Some(today))]))
        else
          var loans' := st.loans[id := l.(returned := Some(today), fineAmount := Some(fine))];
          var fines' := st.fines + [Fine(Some(user), l.member, id, fine, Unpaid, None)];
          if !st.HasMember(l.member) then Ok(st.(loans := loans', fines := fines'))
          else
            var member := st.MemberAt(l.member);
            var stacked := StackSuspension(member.suspension, now);
            if stacked.None? then Fail(Status(500), Crash)
            else Ok(st.(loans := loans', fines := fines', members := st.members[l.member - 1 := member.(suspension := stacked.value)]))
  }

  /** A quick return on or before the due moment, or with no parseable due
      date, is never fined and never suspends. */
  lemma QuickReturnOnTimeIsFree(st: Library, id: int, now: int, user: UserId, p: Policy)
    requires st.HasLoan(id) && !st.loans[id].MarkedReturned()
    requires !Parses(st.loans[id].due) || Day(now) * SecondsPerDay <= Moment(st.loans[id].due)
    ensures QuickReturn(st, id, now, user, p).Ok?
    ensures QuickReturn(st, id, now, user, p).value.members == st.members
    ensures QuickReturn(st, id, now, user, p).value.fines == st.fines
  {
  }

  /** A fined quick return suspends the member until 30 days past the later
      of now and the running suspension: suspensions stack. */
  lemma QuickReturnStacksSuspension(st: Library, id: int, now: int, user: UserId, p: Policy, until: int)
    requires st.HasLoan(id) && !st.loans[id].MarkedReturned() && st.HasMember(st.loans[id].member)
    requires st.MemberAt(st.loans[id].member).suspension == Until(until)
    requires CalculateFine(st.loans[id].due, DateOnly(Day(now)), now, p.finePerDay) > 0
    ensures QuickReturn(st, id, now, user, p).Ok?
    ensures QuickReturn(st, id, now, user, p).value.MemberAt(st.loans[id].member).suspension ==
            Until(AddDays(if now > until then now else until, SuspensionDays))
  {
  }
}

=== FILE: requests.dfy ===
/** One-shot QR tokens and online borrow requests (utils.py).

    A QR token is `active` until it is used once or found past its expiry.
    An online borrow request is `pending` until an administrator approves it
    (which performs the borrow) or rejects it.
 */
module Requests {
  import opened Base
  import opened Time
  import opened Store
  import opened Fines
  import opened Circulation

  // ---------------------------------------------------------------------------
  // QR tokens

  /** What a successful check reports: whose token it is and how many seconds it has left. */
  datatype QrCheck = QrCheck(user: UserId, expiresIn: int)

  /** `verify_qr_code(token)`: an unknown token or one that is no longer
      active is refused; an active token past its expiry is marked `expired`
      (the one refusal that writes) and refused; otherwise the token is
      reported with its remaining lifetime. */
  function VerifyQr(st: Library, token: string, now: int): (r: (Library, Result<QrCheck>))
    ensures token !in st.qrTokens ==> r == (st, Fail(NoStatus, NotFound))
    ensures token in st.qrTokens && st.qrTokens[token].status != TokenActive ==> r == (st, Fail(NoStatus, NotActive))
    ensures r.1.Ok? <==> token in st.qrTokens && st.qrTokens[token].status == TokenActive && now <= st.qrTokens[token].expiry
    ensures r.1.Ok? ==> r.0 == st && r.1.value.user == st.qrTokens[token].user
    ensures r.1.Ok? ==> r.1.value.expiresIn == st.qrTokens[token].expiry - now && r.1.value.expiresIn >= 0
    ensures token in st.qrTokens && st.qrTokens[token].status == TokenActive && now > st.qrTokens[token].expiry ==>
              r.1 == Fail(NoStatus, QrExpired) &&
              r.0 == st.(qrTokens := st.qrTokens[token := st.qrTokens[token].(status := TokenExpired)])
  {
    if token !in st.qrTokens then (st, Fail(NoStatus, NotFound))
    else
      var q := st.qrTokens[token];
      if q.status != TokenActive then (st, Fail(NoStatus, NotActive))
      else if now > q.expiry then (st.(qrTokens := st.qrTokens[token := q.(status := TokenExpired)]), Fail(NoStatus, QrExpired))
      else (st, Ok(QrCheck(q.user, q.expiry - now)))
  }

  /** `use_qr_code(token)`: an active token becomes `used` and the call
      answers true; anything else answers false and changes nothing. The
      expiry is not consulted. */
  function UseQr(st: Library, token: string, now: int): (r: (Library, bool))
    ensures r.1 <==> token in st.qrTokens && st.qrTokens[token].status == TokenActive
    ensures !r.1 ==> r.0 == st
    ensures r.1 ==> r.0 == st.(qrTokens := st.qrTokens[token := st.qrTokens[token].(status := TokenUsed, usedAt := Some(now))])
  {
    if token !in st.qrTokens || st.qrTokens[token].status != TokenActive then (st, false)
    else (st.(qrTokens := st.qrTokens[token := st.qrTokens[token].(status := TokenUsed, usedAt := Some(now))]), true)
  }

  /** A token is used at most once: every later use answers false and every
      later check refuses it. */
  lemma UseIsOneShot(st: Library, token: string, now: int, later: int)
    requires UseQr(st, token, now).1
    ensures !UseQr(UseQr(st, token, now).0, token, later).1
    ensures VerifyQr(UseQr(st, token, now).0, token, later).1 == Fail(NoStatus, NotActive)
  {
  }

  /** Once a check has found a token expired, it can no longer be used. */
  lemma ExpiredTokenUnusable(st: Library, token: string, now: int, later: int)
    requires token in st.qrTokens && st.qrTokens[token].status == TokenActive && now > st.qrTokens[token].expiry
    ensures !UseQr(VerifyQr(st, token, now).0, token, later).1
  {
  }

  // ---------------------------------------------------------------------------
  // Online borrow requests

  /** `process_online_borrow_request`: book, free copy, member record,
      suspension and the per-member limit are checked in that order; a
      passing request is stored `pending`. The member record is the one
      linked to the signed-in user, if any. */
  function RequestOnline(st: Library, isbn: Isbn, user: UserId, member: Option<MemberId>, now: int, p: Policy): (r: Result<Library>)
    requires member.Some? ==> st.HasMember(member.value)
    ensures isbn !in st.books ==> r == Fail(NoStatus, BookNotFound)
    ensures isbn in st.books && st.books[isbn].quantity <= OpenCount(st.loans, isbn) ==> r == Fail(NoStatus, Unavailable)
    ensures isbn in st.books && OpenCount(st.loans, isbn) < st.books[isbn].quantity && member.None? ==>
              r == Fail(NoStatus, MemberNotFound)
    ensures isbn in st.books && OpenCount(st.loans, isbn) < st.books[isbn].quantity && member.Some?
            && st.MemberAt(member.value).suspension.Unreadable? ==>
              r == Fail(Status(500), Crash)
    ensures isbn in st.books && OpenCount(st.loans, isbn) < st.books[isbn].quantity && member.Some?
            && SuspendedAt(st.MemberAt(member.value).suspension, now) == Some(true) ==>
              r == Fail(NoStatus, Suspended)
    ensures isbn in st.books && OpenCount(st.loans, isbn) < st.books[isbn].quantity && member.Some?
            && SuspendedAt(st.MemberAt(member.value).suspension, now) == Some(false)
            && OpenCountOf(st.loans, member.value) >= p.maxBooksPerMember ==>
              r == Fail(NoStatus, LimitReached)
    ensures r.Ok? <==>
              && isbn in st.books
              && OpenCount(st.loans, isbn) < st.books[isbn].quantity
              && member.Some?
              && SuspendedAt(st.MemberAt(member.value).suspension, now) == Some(false)
              && OpenCountOf(st.loans, member.value) < p.maxBooksPerMember
    ensures r.Ok? ==> r.value == st.(onlineRequests := st.onlineRequests + [OnlineRequest(isbn, user, member.value, Pending, None)])
  {
    if isbn !in st.books then Fail(NoStatus, BookNotFound)
    else if st.books[isbn].quantity <= OpenCount(st.loans, isbn) then Fail(NoStatus, Unavailable)
    else if member.None? then Fail(NoStatus, MemberNotFound)
    else
      var susp := SuspendedAt(st.MemberAt(member.value).suspension, now);
      if susp.None? then Fail(Status(500), Crash)
      else if susp.value then Fail(NoStatus, Suspended)
      else if OpenCountOf(st.loans, member.value) >= p.maxBooksPerMember then Fail(NoStatus, LimitReached)
      else Ok(st.(onlineRequests := st.onlineRequests + [OnlineRequest(isbn, user, member.value, Pending, None)]))
  }

  predicate PendingOnline(st: Library, id: int) {
    0 <= id < |st.onlineRequests| && st.onlineRequests[id].status == Pending
  }

  /** The part of the approval that both readings share: the request must be
      pending, its book and member must exist, and the borrow is attempted. */
  function ApproveOnlineWith(st: Library, id: int, now: int, p: Policy, asWritten: bool): (r: Result<Library>)
    ensures !PendingOnline(st, id) ==> r == Fail(NoStatus, AlreadyProcessed)
    ensures r.Ok? ==>
              var q := st.onlineRequests[id];
              && PendingOnline(st, id)
              && q.isbn in st.books && st.HasMember(q.member)
              && ProcessBorrow(st, q.isbn, q.member, now, p).Ok?
              && r.value == ProcessBorrow(st, q.isbn, q.member, now, p).value.(
                   onlineRequests := st.onlineRequests[id := q.(status := Approved)])
  {
    if !PendingOnline(st, id) then Fail(NoStatus, AlreadyProcessed)
    else
      var q := st.onlineRequests[id];
      if q.isbn !in st.books || !st.HasMember(q.member) then Fail(NoStatus, NotFound)
      else
        var borrowed := ProcessBorrow(st, q.isbn, q.member, now, p);
        if borrowed.Ok? then Ok(borrowed.value.(onlineRequests := st.onlineRequests[id := q.(status := Approved)]))
        else if asWritten then Fail(Status(500), Crash)
        else borrowed
  }

  /** `approve_online_borrow_request` as written: a refused borrow comes back
      as a (response, status) pair, and reading `.status_code` off that pair
      raises, so every refusal surfaces as an internal error. */
  function ApproveOnlineAsWritten(st: Library, id: int, now: int, p: Policy): (r: Result<Library>)
    ensures !PendingOnline(st, id) ==> r == Fail(NoStatus, AlreadyProcessed)
    ensures r.Ok? <==>
              && PendingOnline(st, id)
              && st.onlineRequests[id].isbn in st.books && st.HasMember(st.onlineRequests[id].member)
              && ProcessBorrow(st, st.onlineRequests[id].isbn, st.onlineRequests[id].member, now, p).Ok?
    ensures PendingOnline(st, id) && st.onlineRequests[id].isbn in st.books && st.HasMember(st.onlineRequests[id].member) &&
            ProcessBorrow(st, st.onlineRequests[id].isbn, st.onlineRequests[id].member, now, p).Fail? ==>
              r == Fail(Status(500), Crash)
    ensures r.Ok? ==> ApproveOnlineWith(st, id, now, p, false) == r
  {
    ApproveOnlineWith(st, id, now, p, true)
  }

  /** `approve_online_borrow_request` as evidently intended: a refused borrow
      is handed back to the caller unchanged. Only a pending request can be
      approved, it becomes `approved` exactly when the borrow succeeds, and
      a refusal leaves the request pending. */
  function ApproveOnline(st: Library, id: int, now: int, p: Policy): (r: Result<Library>)
    ensures !PendingOnline(st, id) ==> r == Fail(NoStatus, AlreadyProcessed)
    ensures r.Ok? <==>
              && PendingOnline(st, id)
              && st.onlineRequests[id].isbn in st.books && st.HasMember(st.onlineRequests[id].member)
              && ProcessBorrow(st, st.onlineRequests[id].isbn, st.onlineRequests[id].member, now, p).Ok?
    ensures PendingOnline(st, id) && st.onlineRequests[id].isbn in st.books && st.HasMember(st.onlineRequests[id].member) &&
            ProcessBorrow(st, st.onlineRequests[id].isbn, st.onlineRequests[id].member, now, p).Fail? ==>
              r == ProcessBorrow(st, st.onlineRequests[id].isbn, st.onlineRequests[id].member, now, p)
    ensures r.Ok? ==>
              var q := st.onlineRequests[id];
              && r.value.loans == st.loans + [NewLoan(q.isbn, q.member, now, p.maxBorrowDays)]
              && |r.value.onlineRequests| == |st.onlineRequests|
              && r.value.onlineRequests == st.onlineRequests[id := q.(status := Approved)]
              && r.value == ProcessBorrow(st, q.isbn, q.member, now, p).value.(onlineRequests := r.value.onlineRequests)
  {
    ApproveOnlineWith(st, id, now, p, false)
  }

  /** The discrepancy: for a suspended member the borrow refuses with 403,
      which the corrected approval hands back and the written one turns
      into an internal error. */
  lemma {:induction false} ApproveRefusalCrashes(st: Library, id: int, now: int, p: Policy)
    requires PendingOnline(st, id)
    requires st.onlineRequests[id].isbn in st.books && st.HasMember(st.onlineRequests[id].member)
    requires st.MemberAt(st.onlineRequests[id].member).suspension == Until(now + 1)
    ensures ApproveOnline(st, id, now, p) == Fail(Status(403), Suspended)
    ensures ApproveOnlineAsWritten(st, id, now, p) == Fail(Status(500), Crash)
  {
    var q := st.onlineRequests[id];
    assert ProcessBorrow(st, q.isbn, q.member, now, p) == Fail(Status(403), Suspended);
  }

  /** A request just accepted can be approved on the spot exactly when the
      member holds no open loan of that book: every other borrow guard was
      already checked when the request was made, and the duplicate-loan
      check is the one the request skips. */
  lemma {:induction false} RequestThenApprove(st: Library, isbn: Isbn, user: UserId, member: Option<MemberId>, now: int, p: Policy)
    requires member.Some? ==> st.HasMember(member.value)
    requires RequestOnline(st, isbn, user, member, now, p).Ok?
    ensures var st' := RequestOnline(st, isbn, user, member, now, p).value;
            ApproveOnline(st', |st.onlineRequests|, now, p).Ok? <==>
              !exists i :: 0 <= i < |st.loans| && OpenPair(st.loans[i], isbn, member.value)
  {
    var st' := RequestOnline(st, isbn, user, member, now, p).value;
    var id := |st.onlineRequests|;
    assert st'.onlineRequests[id] == OnlineRequest(isbn, user, member.value, Pending, None);
    assert PendingOnline(st', id);
    assert st'.loans == st.loans && st'.books == st.books && st'.members == st.members;
  }

  /** `reject_online_borrow_request`: only a pending request is rejected, with its reason. */
  function RejectOnline(st: Library, id: int, reason: string): (r: Result<Library>)
    ensures r.Ok? <==> PendingOnline(st, id)
    ensures !PendingOnline(st, id) ==> r == Fail(NoStatus, AlreadyProcessed)
    ensures r.Ok? ==>
              && r.value == st.(onlineRequests := r.value.onlineRequests)
              && |r.value.onlineRequests| == |st.onlineRequests|
              && (forall i :: 0 <= i < |st.onlineRequests| && i != id ==> r.value.onlineRequests[i] == st.onlineRequests[i])
              && r.value.onlineRequests[id] == st.onlineRequests[id].(status := Rejected, reason := Some(reason))
  {
    if !PendingOnline(st, id) then Fail(NoStatus, AlreadyProcessed)
    else Ok(st.(onlineRequests := st.onlineRequests[id := st.onlineRequests[id].(status := Rejected, reason := Some(reason))]))
  }

  /** A request is decided at most once: after an approval or a rejection,
      neither can be applied again. */
  lemma {:induction false} DecidedOnce(st: Library, id: int, now: int, p: Policy, reason: string, later: int)
    ensures ApproveOnline(st, id, now, p).Ok? ==>
              && ApproveOnline(ApproveOnline(st, id, now, p).value, id, later, p) == Fail(NoStatus, AlreadyProcessed)
              && RejectOnline(ApproveOnline(st, id, now, p).value, id, reason) == Fail(NoStatus, AlreadyProcessed)
    ensures RejectOnline(st, id, reason).Ok? ==>
              && ApproveOnline(RejectOnline(st, id, reason).value, id, later, p) == Fail(NoStatus, AlreadyProcessed)
              && RejectOnline(RejectOnline(st, id, reason).value, id, reason) == Fail(NoStatus, AlreadyProcessed)
  {
    if ApproveOnline(st, id, now, p).Ok? {
      assert !PendingOnline(ApproveOnline(st, id, now, p).value, id);
    }
    if RejectOnline(st, id, reason).Ok? {
      assert !PendingOnline(RejectOnline(st, id, reason).value, id);
    }
  }
}

=== FILE: reservations.dfy ===
/** The reservation queue (`reserve_book` in api.py, `api_cancel_reservation`
    in api_extended.py) and fine payment (`api_pay_fine`).

    Per ISBN, the active reservations carry queue positions. Enqueueing puts
    the newcomer one past the highest active position; cancelling moves every
    later active reservation of the same ISBN one place forward. Together
    they keep the positions gap-free: exactly 1..N for N active reservations.
 */
module Reservations {
  import opened Base
  import opened Time
  import opened Store

  predicate Queued(r: Reservation, isbn: Isbn) {
    r.status == Active && r.isbn == isbn
  }

  /** Number of active reservations of an ISBN. */
  function QueueLength(rs: seq<Reservation>, isbn: Isbn): nat {
    if |rs| == 0 then 0
    else QueueLength(rs[..|rs| - 1], isbn) + (if Queued(rs[|rs| - 1], isbn) then 1 else 0)
  }

  /** The highest active position of an ISBN, if it has any active reservation. */
  function LastPosition(rs: seq<Reservation>, isbn: Isbn): (r: Option<int>)
    ensures r.None? <==> forall i :: 0 <= i < |rs| ==> !Queued(rs[i], isbn)
    ensures r.Some? ==> exists i :: 0 <= i < |rs| && Queued(rs[i], isbn) && rs[i].position == r.value
    ensures r.Some? ==> forall i :: 0 <= i < |rs| && Queued(rs[i], isbn) ==> rs[i].position <= r.value
  {
    if |rs| == 0 then None
    else
      var prefix := LastPosition(rs[..|rs| - 1], isbn);
      var last := rs[|rs| - 1];
      if !Queued(last, isbn) then prefix
      else if prefix.None? || prefix.value < last.position then Some(last.position)
      else prefix
  }

  /** The positions of one ISBN's active reservations are exactly 1..N: each
      lies in 1..N, no two share a position, and every position 1..N is held. */
  ghost predicate GapFree(rs: seq<Reservation>, isbn: Isbn) {
    var n := QueueLength(rs, isbn);
    && (forall i :: 0 <= i < |rs| && Queued(rs[i], isbn) ==> 1 <= rs[i].position <= n)
    && (forall i, j :: 0 <= i < j < |rs| && Queued(rs[i], isbn) && Queued(rs[j], isbn) ==> rs[i].position != rs[j].position)
    && (forall k :: 1 <= k <= n ==> Held(rs, isbn, k))
  }

  /** Some active reservation of the ISBN sits at position `k`. */
  ghost predicate Held(rs: seq<Reservation>, isbn: Isbn, k: int) {
    exists i :: 0 <= i < |rs| && Queued(rs[i], isbn) && rs[i].position == k
  }

  /** A member (user) holds at most one active reservation per ISBN. */
  ghost predicate OneHoldPerUser(rs: seq<Reservation>) {
    forall i, j :: 0 <= i < j < |rs| && rs[i].status == Active && rs[j].status == Active && rs[i].isbn == rs[j].isbn
      ==> rs[i].user != rs[j].user
  }

  function HasHold(rs: seq<Reservation>, isbn: Isbn, user: UserId): (b: bool)
    ensures b <==> exists i :: 0 <= i < |rs| && Queued(rs[i], isbn) && rs[i].user == user
  {
    if |rs| == 0 then false
    else
      var last := rs[|rs| - 1];
      assert forall i :: 0 <= i < |rs| - 1 ==> rs[..|rs| - 1][i] == rs[i];
      HasHold(rs[..|rs| - 1], isbn, user) || (Queued(last, isbn) && last.user == user)
  }

  // ---------------------------------------------------------------------------
  // reserve_book

  /** `reserve_book`: unknown book 404; a free copy 400 (borrow instead); an
      active reservation of this user for the book 400; no member 404. The
      new reservation goes one past the highest active position, or to 1, and
      expires `reservation_expiry_days` from now. */
  function Reserve(st: Library, isbn: Isbn, user: UserId, member: Option<MemberId>, now: int, p: Policy): (r: Result<Library>)
    ensures isbn !in st.books ==> r == Fail(Status(404), BookNotFound)
    ensures isbn in st.books && st.books[isbn].quantity > OpenCount(st.loans, isbn) ==> r == Fail(Status(400), BookAvailable)
    ensures isbn in st.books && st.books[isbn].quantity <= OpenCount(st.loans, isbn)
            && HasHold(st.reservations, isbn, user) ==>
              r == Fail(Status(400), AlreadyReserved)
    ensures isbn in st.books && st.books[isbn].quantity <= OpenCount(st.loans, isbn)
            && !HasHold(st.reservations, isbn, user) && member.None? ==>
              r == Fail(Status(404), MemberNotFound)
    ensures r.Ok? <==>
              && isbn in st.books
              && st.books[isbn].quantity <= OpenCount(st.loans, isbn)
              && !HasHold(st.reservations, isbn, user)
              && member.Some?
    ensures r.Ok? ==>
              var last := LastPosition(st.reservations, isbn);
              var pos := if last.Some? then last.value + 1 else 1;
              && r.value == st.(reservations := st.reservations +
                   [Reservation(isbn, user, member.value, pos, Active, AddDays(now, p.reservationExpiryDays))])
              && (forall i :: 0 <= i < |st.reservations| && Queued(st.reservations[i], isbn) ==> st.reservations[i].position < pos)
  {
    if isbn !in st.books then Fail(Status(404), BookNotFound)
    else if st.books[isbn].quantity > OpenCount(st.loans, isbn) then Fail(Status(400), BookAvailable)
    else if HasHold(st.reservations, isbn, user) then Fail(Status(400), AlreadyReserved)
    else if member.None? then Fail(Status(404), MemberNotFound)
    else
      var last := LastPosition(st.reservations, isbn);
      var pos := if last.Some? then last.value + 1 else 1;
      Ok(st.(reservations := st.reservations + [Reservation(isbn, user, member.value, pos, Active, AddDays(now, p.reservationExpiryDays))]))
  }

  lemma {:induction false} QueueLengthAppend(rs: seq<Reservation>, r: Reservation, isbn: Isbn)
    ensures QueueLength(rs + [r], isbn) == QueueLength(rs, isbn) + (if Queued(r, isbn) then 1 else 0)
  {
    assert (rs + [r])[..|rs|] == rs;
  }

  /** On a gap-free queue of length N the newcomer gets position N + 1. */
  lemma {:induction false} GapFreeLastIsLength(rs: seq<Reservation>, isbn: Isbn)
    requires GapFree(rs, isbn)
    ensures LastPosition(rs, isbn) == (if QueueLength(rs, isbn) == 0 then None else Some(QueueLength(rs, isbn)))
  {
    var n := QueueLength(rs, isbn);
    if n != 0 {
      assert Held(rs, isbn, n);
      var i :| 0 <= i < |rs| && Queued(rs[i], isbn) && rs[i].position == n;
    }
  }

  /** Enqueueing keeps every queue gap-free and keeps one hold per user. */
  lemma {:induction false} ReservePreserves(st: Library, isbn: Isbn, user: UserId, member: Option<MemberId>, now: int, p: Policy, q: Isbn)
    requires Reserve(st, isbn, user, member, now, p).Ok?
    ensures GapFree(st.reservations, q) ==> GapFree(Reserve(st, isbn, user, member, now, p).value.reservations, q)
    ensures OneHoldPerUser(st.reservations) ==> OneHoldPerUser(Reserve(st, isbn, user, member, now, p).value.reservations)
  {
    var rs := st.reservations;
    var rs' := Reserve(st, isbn, user, member, now, p).value.reservations;
    var nr := rs'[|rs|];
    assert rs' == rs + [nr];
    QueueLengthAppend(rs, nr, q);
    if GapFree(rs, q) && q == isbn {
      GapFreeLastIsLength(rs, q);
      var n := QueueLength(rs, q);
      assert nr.position == n + 1;
      forall k | 1 <= k <= n + 1
        ensures Held(rs', q, k)
      {
        if k == n + 1 {
          assert Queued(rs'[|rs|], q) && rs'[|rs|].position == k;
        } else {
          assert Held(rs, q, k);
          var i :| 0 <= i < |rs| && Queued(rs[i], q) && rs[i].position == k;
          assert rs'[i] == rs[i];
        }
      }
    }
    if GapFree(rs, q) && q != isbn {
      forall k | 1 <= k <= QueueLength(rs', q)
        ensures Held(rs', q, k)
      {
        assert Held(rs, q, k);
        var i :| 0 <= i < |rs| && Queued(rs[i], q) && rs[i].position == k;
        assert rs'[i] == rs[i];
      }
    }
  }

  // ---------------------------------------------------------------------------
  // api_cancel_reservation

  /** The reservation row after cancelling reservation `c` (position `pos`, ISBN `isbn`). */
  function Shifted(r: Reservation, isbn: Isbn, pos: int): Reservation {
    if Queued(r, isbn) && r.position > pos then r.(position := r.position - 1) else r
  }

  /** The reservation table after cancelling row `id`. */
  function CancelRows(rs: seq<Reservation>, id: nat): (rs': seq<Reservation>)
    requires id < |rs|
    ensures |rs'| == |rs|
    ensures rs'[id] == rs[id].(status := Cancelled)
    ensures forall i :: 0 <= i < |rs| && i != id ==> rs'[i] == Shifted(rs[i], rs[id].isbn, rs[id].position)
  {
    seq(|rs|, i requires 0 <= i < |rs| =>
      if i == id then rs[id].(status := Cancelled) else Shifted(rs[i], rs[id].isbn, rs[id].position))
  }

  /** `api_cancel_reservation(id)`: unknown id 404, a reservation that is not
      active 400 with nothing changed; otherwise it becomes `cancelled` and
      exactly the active reservations of the same ISBN queued behind it move
      one place forward. */
  function Cancel(st: Library, id: int): (r: Result<Library>)
    ensures !(0 <= id < |st.reservations|) ==> r == Fail(Status(404), NotFound)
    ensures 0 <= id < |st.reservations| && st.reservations[id].status != Active ==> r == Fail(Status(400), NotActive)
    ensures r.Ok? <==> 0 <= id < |st.reservations| && st.reservations[id].status == Active
    ensures r.Ok? ==>
              var c := st.reservations[id];
              var rs' := r.value.reservations;
              && r.value == st.(reservations := rs')
              && |rs'| == |st.reservations|
              && rs'[id] == c.(status := Cancelled)
              && (forall i :: 0 <= i < |rs'| && i != id ==>
                    var prior := st.reservations[i];
                    rs'[i] == (if prior.status == Active && prior.isbn == c.isbn && prior.position > c.position
                               then prior.(position := prior.position - 1) else prior))
  {
    if !(0 <= id < |st.reservations|) then Fail(Status(404), NotFound)
    else if st.reservations[id].status != Active then Fail(Status(400), NotActive)
    else Ok(st.(reservations := CancelRows(st.reservations, id)))
  }

  /** Two sequences of equal length that agree on whether each row is queued,
      except at one row that drops out, differ in queue length by one. */
  lemma {:induction false} QueueLengthDrop(a: seq<Reservation>, b: seq<Reservation>, id: nat, isbn: Isbn)
    requires |a| == |b| && id < |a|
    requires Queued(a[id], isbn) && !Queued(b[id], isbn)
    requires forall i :: 0 <= i < |a| && i != id ==> (Queued(a[i], isbn) <==> Queued(b[i], isbn))
    ensures QueueLength(b, isbn) + 1 == QueueLength(a, isbn)
    decreases |a|
  {
    var n := |a| - 1;
    if id == n {
      QueueLengthSame(a[..n], b[..n], isbn);
    } else {
      QueueLengthDrop(a[..n], b[..n], id, isbn);
    }
  }

  lemma {:induction false} QueueLengthSame(a: seq<Reservation>, b: seq<Reservation>, isbn: Isbn)
    requires |a| == |b|
    requires forall i :: 0 <= i < |a| ==> (Queued(a[i], isbn) <==> Queued(b[i], isbn))
    ensures QueueLength(b, isbn) == QueueLength(a, isbn)
    decreases |a|
  {
    if |a| > 0 {
      QueueLengthSame(a[..|a| - 1], b[..|b| - 1], isbn);
    }
  }

  /** Cancelling a reservation of another ISBN leaves this ISBN's queue as it was. */
  lemma {:induction false} CancelOtherQueue(rs: seq<Reservation>, id: nat, q: Isbn)
    requires id < |rs| && rs[id].isbn != q && GapFree(rs, q)
    ensures GapFree(CancelRows(rs, id), q)
  {
    var rs' := CancelRows(rs, id);
    assert forall i :: 0 <= i < |rs| ==> (Queued(rs'[i], q) <==> Queued(rs[i], q));
    assert forall i :: 0 <= i < |rs| && Queued(rs[i], q) ==> rs'[i] == rs[i];
    QueueLengthSame(rs, rs', q);
    forall k | 1 <= k <= QueueLength(rs, q)
      ensures Held(rs', q, k)
    {
      assert Held(rs, q, k);
      var i :| 0 <= i < |rs| && Queued(rs[i], q) && rs[i].position == k;
      assert rs'[i] == rs[i];
    }
  }

  /** Cancelling from a gap-free queue of length N leaves positions 1..N-1. */
  lemma {:induction false} CancelOwnQueue(rs: seq<Reservation>, id: nat)
    requires id < |rs| && rs[id].status == Active && GapFree(rs, rs[id].isbn)
    ensures GapFree(CancelRows(rs, id), rs[id].isbn)
  {
    var rs' := CancelRows(rs, id);
    var c := rs[id];
    var q := c.isbn;
    var n := QueueLength(rs, q);
    QueueLengthDrop(rs, rs', id, q);
    forall k | 1 <= k <= n - 1
      ensures Held(rs', q, k)
    {
      if k < c.position {
        assert Held(rs, q, k);
        var i :| 0 <= i < |rs| && Queued(rs[i], q) && rs[i].position == k;
        assert rs'[i] == rs[i];
      } else {
        assert Held(rs, q, k + 1);
        var i :| 0 <= i < |rs| && Queued(rs[i], q) && rs[i].position == k + 1;
        assert rs'[i].position == k;
      }
    }
    forall i | 0 <= i < |rs'| && Queued(rs'[i], q)
      ensures 1 <= rs'[i].position <= n - 1
    {
      assert i != id;
      assert rs[i].position != c.position || i == id;
    }
  }

  /** Cancelling keeps every pair of still-queued reservations in the same relative order. */
  lemma CancelKeepsOrder(rs: seq<Reservation>, id: nat, q: Isbn, i: nat, j: nat)
    requires id < |rs| && i < |rs| && j < |rs| && rs[id].status == Active
    requires Queued(CancelRows(rs, id)[i], q) && Queued(CancelRows(rs, id)[j], q)
    requires GapFree(rs, q)
    ensures CancelRows(rs, id)[i].position < CancelRows(rs, id)[j].position <==> rs[i].position < rs[j].position
  {
    var c := rs[id];
    assert i != id && j != id;
    if c.isbn == q {
      assert Queued(rs[i], q) && Queued(rs[j], q) && Queued(c, q);
      assert rs[i].position != c.position by {
        if i < id { } else { }
      }
      assert rs[j].position != c.position by {
        if j < id { } else { }
      }
    }
  }

  /** Cancel keeps every ISBN's queue gap-free. */
  lemma CancelKeepsQueueGapFree(st: Library, id: int, q: Isbn)
    requires Cancel(st, id).Ok? && GapFree(st.reservations, q)
    ensures GapFree(Cancel(st, id).value.reservations, q)
  {
    if st.reservations[id].isbn == q {
      CancelOwnQueue(st.reservations, id);
    } else {
      CancelOtherQueue(st.reservations, id, q);
    }
  }

  /** Cancelling only ever deactivates, so one hold per user is kept. */
  lemma CancelKeepsOneHold(st: Library, id: int)
    requires Cancel(st, id).Ok? && OneHoldPerUser(st.reservations)
    ensures OneHoldPerUser(Cancel(st, id).value.reservations)
  {
  }

  // ---------------------------------------------------------------------------
  // api_pay_fine

  /** `api_pay_fine(id)`: unknown id 404, an already paid fine 400; otherwise
      the fine is paid now. Nothing else changes. */
  function PayFine(st: Library, id: int, now: int): (r: Result<Library>)
    ensures !(0 <= id < |st.fines|) ==> r == Fail(Status(404), NotFound)
    ensures 0 <= id < |st.fines| && st.fines[id].status == Paid ==> r == Fail(Status(400), AlreadyPaid)
    ensures r.Ok? <==> 0 <= id < |st.fines| && st.fines[id].status != Paid
    ensures r.Ok? ==>
              && r.value == st.(fines := r.value.fines)
              && |r.value.fines| == |st.fines|
              && (forall i :: 0 <= i < |st.fines| && i != id ==> r.value.fines[i] == st.fines[i])
              && r.value.fines[id] == st.fines[id].(status := Paid, paidAt := Some(now))
  {
    if !(0 <= id < |st.fines|) then Fail(Status(404), NotFound)
    else if st.fines[id].status == Paid then Fail(Status(400), AlreadyPaid)
    else Ok(st.(fines := st.fines[id := st.fines[id].(status := Paid, paidAt := Some(now))]))
  }

  /** Payment is one-shot: paying the same fine again is refused. */
  lemma PayOnce(st: Library, id: int, now: int, later: int)
    requires PayFine(st, id, now).Ok?
    ensures PayFine(PayFine(st, id, now).value, id, later) == Fail(Status(400), AlreadyPaid)
  {
  }
}

=== FILE: scenario.dfy ===
/** A walk through one copy's life: lend, refuse, queue, late return with a
    stacked suspension, and the queued member borrowing in person. */
module Scenario {
  import opened Base
  import opened Time
  import opened Store
  import opened Fines
  import opened Circulation
  import opened LoansApi
  import opened Reservations

  const Isbn1: Isbn := "ISBN-1"

  /** One lira a day (in kuruş), fourteen-day loans, limit five. */
  const Rules: Policy := Policy(100, 14, 2, 3, 5)

  /** One title with a single copy; member 1 and member 2, neither suspended. */
  const Start: Library := Library(
    map[Isbn1 := Book(1, 0, None, "available")],
    [Member("101", Unset, 0, 0), Member("102", Unset, 0, 0)],
    [], [], [], [], [], map[])

  /** Member 1 borrows at time 0 (due on day 14 at 00:00), member 2 is
      refused and queues first, member 1 comes back on day 17: three days
      late, three days' fine, suspended for thirty days from then. The
      queued member is not served automatically; borrowing in person then
      succeeds. */
  lemma {:induction false} OneCopyWalkThrough(staff: UserId)
    ensures var a := ProcessBorrow(Start, Isbn1, 1, 0, Rules);
            && a.Ok?
            && ProcessBorrow(a.value, Isbn1, 2, 60, Rules) == Fail(Status(400), Unavailable)
            && var b := Reserve(a.value, Isbn1, 2, Some(2), 120, Rules);
            && b.Ok? && b.value.reservations[0].position == 1
            && var back := 17 * SecondsPerDay + 600;
            && var c := QuickReturn(b.value, 0, back, staff, Rules);
            && c.Ok?
            && c.value.fines == [Fine(Some(staff), 1, 0, 300, Unpaid, None)]
            && c.value.MemberAt(1).suspension == Until(back + 30 * SecondsPerDay)
            && c.value.reservations == b.value.reservations
            && ProcessBorrow(c.value, Isbn1, 2, back + 60, Rules).Ok?
  {
    var a := ProcessBorrow(Start, Isbn1, 1, 0, Rules);
    assert OpenCount(Start.loans, Isbn1) == 0;
    assert a.Ok?;
    var sa := a.value;
    assert sa.loans == [NewLoan(Isbn1, 1, 0, 14)];
    assert OpenCount(sa.loans, Isbn1) == 1 by { OpenCountAppend([], NewLoan(Isbn1, 1, 0, 14), Isbn1); }
    var b := Reserve(sa, Isbn1, 2, Some(2), 120, Rules);
    assert b.Ok?;
    var sb := b.value;
    var back := 17 * SecondsPerDay + 600;
    DayOfSpan(back, 17);
    var due := sb.loans[0].due;
    assert due == DateTime(14 * SecondsPerDay);
    assert CalculateFine(due, DateOnly(17), back, 100) == 300 by {
      FineCountsCalendarDays(due, DateOnly(17), back, 100, 3);
      DayOfSpan(14 * SecondsPerDay, 14);
    }
    var c := QuickReturn(sb, 0, back, staff, Rules);
    assert c.Ok?;
    var sc := c.value;
    assert sc.loans == [sb.loans[0].(returned := Some(DateOnly(17)), fineAmount := Some(300))];
    assert OpenCount(sc.loans, Isbn1) == 0 by { assert sc.loans[..0] == []; }
    assert OpenCountOf(sc.loans, 2) == 0 by { assert sc.loans[..0] == []; }
    assert sc.MemberAt(2).suspension == Unset;
  }
}

=== FILE: store.dfy ===
/** The records of the circulation core and the queries the handlers run on them.

    Each table is a sequence in insertion order (the core never deletes a
    row); books are keyed by ISBN. Loans, reservations and requests are
    named by their index. Members are named by their database id, which
    starts at 1, so member `m` is `members[m - 1]` and 0 names nobody, as it
    does in the database. `filter_by(...).first()` is the lowest match.
 */
module Store {
  import opened Base
  import opened Time

  type Isbn = string
  type MemberId = int
  type UserId = int

  /** A catalog entry; the core reads `quantity` and writes only the counters and `status`. */
  datatype Book = Book(quantity: int, totalBorrowCount: nat, lastBorrowed: Option<int>, status: string)

  /** `penalty_until`: unset, a moment, or a stored value that does not parse as a timestamp. */
  datatype Suspension = Unset | Until(at: int) | Unreadable

  datatype Member = Member(schoolNo: string, suspension: Suspension, totalBorrowed: nat, currentBorrowed: nat)

  /** A transaction row; it is open while `returned` is `None`. */
  datatype Loan = Loan(
    isbn: Isbn,
    member: MemberId,
    borrowedAt: int,
    due: DateText,
    returned: Option<DateText>,
    renewCount: int,
    fineAmount: Option<nat>)
  {
    predicate Open() { returned.None? }

    /** The truthiness test some handlers apply instead (`if transaction.return_date:`):
        a stored empty return date does not count as returned. */
    predicate MarkedReturned() { returned.Some? && !returned.value.Missing? }
  }

  datatype ReservationStatus = Active | Cancelled | Fulfilled | Expired

  datatype Reservation = Reservation(
    isbn: Isbn,
    user: UserId,
    member: MemberId,
    position: int,
    status: ReservationStatus,
    expiry: int)

  datatype FineStatus = Unpaid | Paid

  /** A fine record; amounts are in kuruş (hundredths of a lira). */
  datatype Fine = Fine(user: Option<UserId>, member: MemberId, loan: nat, amount: nat, status: FineStatus, paidAt: Option<int>)

  datatype RequestStatus = Pending | Approved | Rejected | Completed

  /** An online borrow request; `reason` is the rejection reason once rejected. */
  datatype OnlineRequest = OnlineRequest(isbn: Isbn, user: UserId, member: MemberId, status: RequestStatus, reason: Option<string>)

  datatype RequestKind = BorrowKind | OtherKind(name: string)

  /** A kiosk self-service request. */
  datatype KioskRequest = KioskRequest(member: MemberId, isbn: Isbn, kind: RequestKind, status: RequestStatus, token: string, notes: string)

  datatype TokenStatus = TokenActive | TokenUsed | TokenExpired

  /** A one-shot QR login token. */
  datatype QrToken = QrToken(user: UserId, expiry: int, status: TokenStatus, usedAt: Option<int>)

  datatype Library = Library(
    books: map<Isbn, Book>,
    members: seq<Member>,
    loans: seq<Loan>,
    reservations: seq<Reservation>,
    fines: seq<Fine>,
    onlineRequests: seq<OnlineRequest>,
    kioskRequests: seq<KioskRequest>,
    qrTokens: map<string, QrToken>)
  {
    predicate HasMember(m: MemberId) { 1 <= m <= |members| }

    /** The member row with database id `m`. */
    function MemberAt(m: MemberId): Member
      requires HasMember(m)
    {
      members[m - 1]
    }

    predicate HasLoan(id: int) { 0 <= id < |loans| }
  }

  /** Loan policy read from the settings table, already converted to numbers. */
  datatype Policy = Policy(
    finePerDay: nat,
    maxBorrowDays: int,
    maxRenewCount: int,
    reservationExpiryDays: int,
    maxBooksPerMember: int)

  // ---------------------------------------------------------------------------
  // Loan queries

  predicate OpenFor(l: Loan, isbn: Isbn) { l.Open() && l.isbn == isbn }
  predicate OpenOf(l: Loan, m: MemberId) { l.Open() && l.member == m }
  predicate OpenPair(l: Loan, isbn: Isbn, m: MemberId) { l.Open() && l.isbn == isbn && l.member == m }

  /** Number of open loans of one ISBN (`filter_by(isbn=…, return_date=None).count()`). */
  function OpenCount(loans: seq<Loan>, isbn: Isbn): nat {
    if |loans| == 0 then 0
    else OpenCount(loans[..|loans| - 1], isbn) + (if OpenFor(loans[|loans| - 1], isbn) then 1 else 0)
  }

  /** Number of open loans held by one member. */
  function OpenCountOf(loans: seq<Loan>, m: MemberId): nat {
    if |loans| == 0 then 0
    else OpenCountOf(loans[..|loans| - 1], m) + (if OpenOf(loans[|loans| - 1], m) then 1 else 0)
  }

  /** The first open loan of (isbn, member), if any. */
  function FindOpen(loans: seq<Loan>, isbn: Isbn, m: MemberId): (r: Option<nat>)
    ensures r.Some? ==> r.value < |loans| && OpenPair(loans[r.value], isbn, m)
    ensures r.Some? ==> forall i :: 0 <= i < r.value ==> !OpenPair(loans[i], isbn, m)
    ensures r.None? ==> forall i :: 0 <= i < |loans| ==> !OpenPair(loans[i], isbn, m)
  {
    FindOpenFrom(loans, isbn, m, 0)
  }

  function FindOpenFrom(loans: seq<Loan>, isbn: Isbn, m: MemberId, k: nat): (r: Option<nat>)
    requires k <= |loans|
    ensures r.Some? ==> k <= r.value < |loans| && OpenPair(loans[r.value], isbn, m)
    ensures r.Some? ==> forall i :: k <= i < r.value ==> !OpenPair(loans[i], isbn, m)
    ensures r.None? ==> forall i :: k <= i < |loans| ==> !OpenPair(loans[i], isbn, m)
    decreases |loans| - k
  {
    if k == |loans| then None
    else if OpenPair(loans[k], isbn, m) then Some(k)
    else FindOpenFrom(loans, isbn, m, k + 1)
  }

  /** The id of the first member with the given school number
      (`filter_by(numara=…).first()`). */
  function FindBySchoolNo(members: seq<Member>, no: string): (r: Option<MemberId>)
    ensures r.Some? ==> 1 <= r.value <= |members| && members[r.value - 1].schoolNo == no
    ensures r.Some? ==> forall i :: 0 <= i < r.value - 1 ==> members[i].schoolNo != no
    ensures r.None? ==> forall i :: 0 <= i < |members| ==> members[i].schoolNo != no
  {
    if |members| == 0 then None
    else
      var r := FindBySchoolNo(members[..|members| - 1], no);
      if r.Some? then r
      else if members[|members| - 1].schoolNo == no then Some(|members|)
      else None
  }

  // ---------------------------------------------------------------------------
  // Counting lemmas

  lemma {:induction false} OpenCountAppend(loans: seq<Loan>, l: Loan, isbn: Isbn)
    ensures OpenCount(loans + [l], isbn) == OpenCount(loans, isbn) + (if OpenFor(l, isbn) then 1 else 0)
  {
    assert (loans + [l])[..|loans|] == loans;
  }

  lemma {:induction false} OpenCountOfAppend(loans: seq<Loan>, l: Loan, m: MemberId)
    ensures OpenCountOf(loans + [l], m) == OpenCountOf(loans, m) + (if OpenOf(l, m) then 1 else 0)
  {
    assert (loans + [l])[..|loans|] == loans;
  }

  /** Replacing one loan changes each count by the difference the row itself makes. */
  lemma {:induction false} OpenCountUpdate(loans: seq<Loan>, i: nat, l: Loan, isbn: Isbn)
    requires i < |loans|
    ensures OpenCount(loans[i := l], isbn) + (if OpenFor(loans[i], isbn) then 1 else 0)
         == OpenCount(loans, isbn) + (if OpenFor(l, isbn) then 1 else 0)
    decreases |loans|
  {
    var n := |loans| - 1;
    if i == n {
      assert loans[i := l][..n] == loans[..n];
    } else {
      assert loans[i := l][..n] == loans[..n][i := l];
      OpenCountUpdate(loans[..n], i, l, isbn);
    }
  }

  lemma {:induction false} OpenCountOfUpdate(loans: seq<Loan>, i: nat, l: Loan, m: MemberId)
    requires i < |loans|
    ensures OpenCountOf(loans[i := l], m) + (if OpenOf(loans[i], m) then 1 else 0)
         == OpenCountOf(loans, m) + (if OpenOf(l, m) then 1 else 0)
    decreases |loans|
  {
    var n := |loans| - 1;
    if i == n {
      assert loans[i := l][..n] == loans[..n];
    } else {
      assert loans[i := l][..n] == loans[..n][i := l];
      OpenCountOfUpdate(loans[..n], i, l, m);
    }
  }

  /** The member's open-loan count covers each of their open loans. */
  lemma {:induction false} OpenCountOfPositive(loans: seq<Loan>, i: nat, m: MemberId)
    requires i < |loans| && OpenOf(loans[i], m)
    ensures OpenCountOf(loans, m) >= 1
    decreases |loans|
  {
    var n := |loans| - 1;
    if i < n {
      OpenCountOfPositive(loans[..n], i, m);
    }
  }

  // ---------------------------------------------------------------------------
  // Invariants

  /** No ISBN has more open loans than copies. */
  ghost predicate WithinStock(st: Library) {
    forall isbn :: isbn in st.books ==> OpenCount(st.loans, isbn) <= st.books[isbn].quantity
  }

  /** Each member's `current_borrowed` equals the number of loans they hold open. */
  ghost predicate CountersAgree(st: Library) {
    forall m :: st.HasMember(m) ==> st.MemberAt(m).currentBorrowed == OpenCountOf(st.loans, m)
  }
}

=== FILE: time.dfy ===
/** Timestamps and the two date-string shapes the store keeps.

    A moment is an integer number of seconds; its calendar day is the
    floor quotient by 86400 (Dafny's `/` floors for a positive divisor, as
    Python's `date()` does). Date strings are converted at the boundary: a
    string written as `YYYY-MM-DD` is `DateOnly(day)` and means midnight of
    that day, one written as `YYYY-MM-DD HH:MM:SS` is `DateTime(at)`, a null or
    empty value is `Missing`, and anything else is `Garbled`.
 */
module Time {

  const SecondsPerDay: int := 86400

  datatype DateText = Missing | Garbled | DateOnly(day: int) | DateTime(at: int)

  /** Both formats the store writes parse. */
  predicate Parses(d: DateText) {
    d.DateOnly? || d.DateTime?
  }

  /** The moment a parseable date string denotes (date-only means midnight). */
  function Moment(d: DateText): int
    requires Parses(d)
  {
    match d
    case DateOnly(day) => day * SecondsPerDay
    case DateTime(at) => at
  }

  /** Calendar day of a moment. */
  function Day(t: int): int {
    t / SecondsPerDay
  }

  /** The moment `days` whole days after `t` (Python's `t + timedelta(days=n)`). */
  function AddDays(t: int, days: int): int {
    t + days * SecondsPerDay
  }

  /** The calendar day of a moment is the one whose midnight-to-midnight span holds it. */
  lemma DayBounds(t: int)
    ensures Day(t) * SecondsPerDay <= t < (Day(t) + 1) * SecondsPerDay
  {
  }

  /** A moment inside day `d`'s span has calendar day `d`. */
  lemma {:induction false} DayOfSpan(t: int, d: int)
    requires d * SecondsPerDay <= t < (d + 1) * SecondsPerDay
    ensures Day(t) == d
  {
    DayBounds(t);
  }

  /** Calendar days never run backwards. */
  lemma {:induction false} DayMonotone(a: int, b: int)
    requires a <= b
    ensures Day(a) <= Day(b)
  {
    DayBounds(a);
    DayBounds(b);
  }

  lemma DayOfMoment(d: DateText)
    requires d.DateOnly?
    ensures Day(Moment(d)) == d.day
  {
    DayOfSpan(Moment(d), d.day);
  }
}
